=== FILE: README.md ===
# Particle ring: a Dafny model of the layout, tick and control core

`particle-animation.js` draws a "Saturn ring" of particles on a canvas. Beneath
the trigonometry and drawing sits a small exact core, and this project models it
as pure functions over immutable records.

- **Layout engine, `init()`.** Ring bounds come from a gap list. With scaling on,
  that list is scaled by the smaller canvas side. Each ring's count comes from the
  `density`, `absolute` or `perRing` policy. The count is clamped, then each
  particle is placed inside its ring with the `Particle` constructor's random
  fields. Every `Math.random()` result is an explicit draw in [0, 1). They come
  from a draw source indexed by ring and by position in the ring.
- **Frame bookkeeping of `animate()`.** It covers the pause test on the legacy
  `paused` variable, the frame counter, the fade-in progress and the in-place
  particle update. The update itself is a parameter.
- **Connection selection of `drawConnections()`.** It covers every pair i < j
  closer than `maxDistance`, with its linear alpha. The distance is a parameter.
- **Control state machine.** This is every method of `ParticleRingAPI` except the
  scheduling ones, plus the effective legacy controls, the window resize listener
  and the start-up sequence. The state includes the module-level shadow copies
  (`paused`, `currentPattern`, `rotationSpeed`, ...). `changeSpeed`,
  `adjustRingWidth`, `adjustParticleCount` and `toggleTextVisibility` read those
  copies; `changePattern` and `togglePause` read the configuration; `animate()`
  tests the `paused` copy.

JavaScript numbers in the count policy are `Num = Finite(real) | NaN`. A missing
key reads as `undefined`, and every operator `init()` applies turns that into
NaN. This matters because a `particleCount` fragment merged by `updateConfig`
lacks `minParticles` and `maxParticles`, so the clamp yields NaN and the ring
loop `i < NaN` creates nothing. JavaScript's truncating `%` is written out as
`JsNumber.Rem`. π is the constant 3.141592653589793.

`updateConfig` is `Object.assign`, a shallow merge in which a nested record
replaces the configured one whole (`Controls.Merge`).

Modules, in dependency order:

| module | file | models |
|---|---|---|
| `Options`, `JsNumber` | options.dfy, js_number.dfy | optional values, JavaScript number semantics |
| `RingConfig` | config.dfy | `ParticleRingConfig` and its defaults |
| `Particles` | particle.dfy | the `Particle` record and constructor |
| `Layout`, `LayoutFacts` | layout.dfy, layout_facts.dfy | `init()` and its properties |
| `Connections` | connections.dfy | `drawConnections()` pair selection |
| `Engine` | animation.dfy | state, `syncVariables`, `init`, `reinitialize`, `animate` |
| `Histogram` | histogram.dfy | `getParticleCountPerRing()` |
| `Controls` | controls.dfy | API setters and legacy controls |
| `Api` | api.dfy | all calls as one command interpreter |
| `Presets`, `Scenarios` | presets.dfy, scenarios.dfy | presets, concrete consequences |

## Model

| member | source | states |
|---|---|---|
| JsNumber.Ceil | particle-animation.js:360 | the result is the least integer not below x: `c - 1 < x <= c` |
| JsNumber.LoopCount | particle-animation.js:360 | `for (i = 0; i < a; i++)` runs for exactly the counters below the result: `ceil(a)` times for positive a, never for NaN or a ≤ 0 |
| JsNumber.Rem | particle-animation.js:658 | truncating `%`: the remainder has the dividend's sign, lies strictly inside (-abs(b), abs(b)), and its magnitude is abs(a) mod abs(b) |
| Particles.NewParticle | particle-animation.js:118-149 | position, radius, colour, angle and distance are stored as given, and the wander offsets start at 0; for draws in [0,1) every random field is in its range: opacity [0.7,1), pulseSpeed [0.01,0.03), sizeVariation [0.5,1), shape in {0,1,2}, rotation, wander angles and orbit phase [0,2π), rotationSpeed [-0.1,0.1), wander speeds [0.005,0.025), amplitudes [2,10), orbitDistortion [0.3,0.7), orbitFrequency [1,4) |
| Layout.EffectiveGeometry | particle-animation.js:305-320 | the gap list has one entry per scaling ratio when scaling is on, and per configured gap otherwise |
| Layout.RingAt | particle-animation.js:324-328 | ring i runs from inner + gaps[i] to inner + gaps[i+1]; the thickness is their difference, and the midpoint is at half the thickness from both ends |
| Layout.RequestedCount | particle-animation.js:331-354 | the request is a whole number unless a `perRing` entry is used; a truthy `perRing` entry is taken unchanged; an undefined base gives NaN |
| Layout.ClampCount | particle-animation.js:356-358 | NaN exactly when an input is NaN; never below min/L; not above max/L when min ≤ max; equal to the request when the request lies between the limits; always one of the three values |
| Layout.RingQuota | particle-animation.js:356-358 | ring i's clamped count is NaN when either limit is undefined; otherwise it is at least `minParticles` / (number of gap entries), and at most `maxParticles` / (number of gap entries) when the limits are ordered |
| Layout.PickColor | particle-animation.js:366 | for a draw in [0,1), a palette entry when the palette is non-empty; undefined for an empty palette |
| Layout.SpreadDistance | particle-animation.js:362 | for a draw in [0,1) the distance lies within [mid - 0.4·t, mid + 0.4·t) for a ring of positive thickness t, and is exactly the midpoint when the thickness is 0 |
| Layout.SpreadInsideRing | particle-animation.js:324-328 | that band lies strictly inside ring i whenever the ring's thickness is positive |
| Layout.DrawnRadius | particle-animation.js:365 | the radius is in [min, max) when min < max, and equal to min when min = max |
| Layout.Place | particle-animation.js:360-375 | for valid draws the particle is seated in ring i (centre, distance, radius, colour, random fields), and its angle is in [2πk/n, 2πk/n + 0.3) |
| Layout.RingParticles | particle-animation.js:357-376 | ring i creates `LoopCount` of its clamped count, and particle k is placed in slot k with draws (i, k) |
| Layout.LayoutFrom | particle-animation.js:323-377 | the particles of rings i, i+1, … number the sum of their loop counts |
| Layout.BuildLayout | particle-animation.js:298-378 | the list is emptied and then filled ring by ring; its length is the sum over rings of the loop counts |
| LayoutFacts.LayoutFromSeated | particle-animation.js:323-377 | with valid draws, every particle of rings i, i+1, … is seated in one of those rings |
| LayoutFacts.LayoutSeated | particle-animation.js:298-378 | with valid draws, every particle of the layout is seated in some ring: at the centre, inside the ring, radius in range, colour from the palette, random fields in range |
| LayoutFacts.MissingLimitEmptiesRings | particle-animation.js:357-360 | an undefined min or max limit makes every ring create no particles |
| LayoutFacts.MissingLimitEmptiesLayout | particle-animation.js:357-360 | an undefined `minParticles` or `maxParticles` gives an empty layout |
| LayoutFacts.LayoutIgnoresUnusedSettings | particle-animation.js:305-320 | `ringWidth`, `particleDensity`, `scaling.baseSize`, `scaling.ringWidthRatio` and every animation, connection, text and canvas setting leave the layout unchanged |
| LayoutFacts.ScaledLayoutIgnoresAbsoluteGeometry | particle-animation.js:308-318 | with scaling on, the configured `innerRadius` and `ringGaps` leave the layout unchanged |
| LayoutFacts.ScaledRingBounds | particle-animation.js:308-328 | with scaling on there is one ring per pair of consecutive ratios; the inner radius is min(w,h)·innerRadiusRatio; ring i spans min(w,h)·(innerRadiusRatio + ratio[i]) to min(w,h)·(innerRadiusRatio + ratio[i+1]) |
| LayoutFacts.ScaledRingsAreProportional | particle-animation.js:305-328 | enlarging both canvas sides by k > 0 enlarges every ring bound by k |
| LayoutFacts.UnscaledRingBounds | particle-animation.js:316-328 | with scaling off, the rings are the configured gaps offset by the configured inner radius |
| LayoutFacts.UnrecognisedModeCountsAsDensity | particle-animation.js:332-353 | an unrecognised mode string requests what `density` requests |
| LayoutFacts.DensityScalesAbsolute | particle-animation.js:348-353 | `density` requests floor(absolute request · multiplier) |
| LayoutFacts.PerRingFallsBack | particle-animation.js:339-346 | `perRing` takes a truthy entry, and otherwise (a 0 entry, a missing array or index) falls back to the absolute formula |
| Connections.ConnectRow | particle-animation.js:390-404 | row i holds exactly the close pairs (i, j) with j > i, in increasing j, each with the linear alpha |
| Connections.SelectConnections | particle-animation.js:381-408 | nothing when disabled; otherwise every emitted line joins i < j < n at distance strictly below `maxDistance` with alpha (1 - d/max)·opacity·fade; every such pair is emitted; lines come in strict loop order, so no pair repeats and no self-pair occurs |
| Connections.AlphaBounds | particle-animation.js:397 | for d in [0, max), the alpha is in [0, opacity·fade], and positive when opacity and fade are |
| Connections.AlphaFallsWithDistance | particle-animation.js:397 | nearer pairs are at least as opaque as farther ones |
| Engine.Sync | particle-animation.js:104-114 | every shadow variable equals its configuration field afterwards |
| Engine.Init | particle-animation.js:298-320 | the particles are rebuilt from configuration and surface alone; the fade, the counter and the configuration are untouched; with scaling on, the `innerRadius` and `ringWidth` shadows take the scaled values and nothing else in the shadows changes; with scaling off the shadows are untouched; coherence is kept |
| Engine.Reinitialize | particle-animation.js:788-791 | the fade restarts at 0 and the layout is rebuilt; coherence is kept |
| Engine.FadeStep | particle-animation.js:457-459 | a fade of 1 or more is kept; up to 0.98 it grows by 0.02; above 0.98 it becomes 1; it never decreases and stays in [0,1] |
| Engine.FadeFromZero | particle-animation.js:457-459 | from 0, the fade after n frames is min(1, 0.02·n) |
| Engine.FadeCompletesIn50 | particle-animation.js:457-459 | from 0, the fade reaches 1 exactly when at least 50 frames have run |
| Engine.FadeStaysInUnit | particle-animation.js:457-459 | from a value in [0,1], the fade stays in [0,1] and does not decrease over any number of frames |
| Engine.Tick | particle-animation.js:448-480 | a frame with the `paused` shadow set changes nothing; otherwise the counter grows by 1, the fade steps, each particle is updated in place, and the configuration, shadows and surface are unchanged |
| Engine.FramesKeepOrbits | particle-animation.js:151-226 | for an update that rewrites only angle, wobble, position, opacity, radius and rotation (as `Particle.update` does), any number of frames keeps each particle's distance and colour |
| Engine.FramesAdvance | particle-animation.js:448-480 | n running frames add n to the counter, apply n fade steps and keep the particle count, configuration and shadows; n paused frames change nothing |
| Histogram.Census | particle-animation.js:728-735 | a bucket floor(distance/50) is a key exactly when some particle falls in it, and its value is that bucket's count |
| Histogram.OccurrencesPositive | particle-animation.js:728-735 | a bucket's count is positive exactly when some particle falls in it |
| Histogram.SameBucketsSameCensus | particle-animation.js:728-735 | lists whose particles fall pairwise in the same buckets have the same census |
| Histogram.CensusTotal | particle-animation.js:728-735 | the census values sum to the number of particles |
| Controls.SetPaused | particle-animation.js:636-644 | `pause()`/`resume()` set the flag in both copies and change nothing else |
| Controls.TogglePause | particle-animation.js:646-649 | the configured flag flips, the shadow copies it, and nothing else changes |
| Controls.TogglePauseTwice | particle-animation.js:646-649 | toggling twice restores a coherent state |
| Controls.SetPattern | particle-animation.js:657-660 | both copies get an index in (-4,4) with the sign of p that differs from p by a multiple of 4 |
| Controls.PatternHandledIff | particle-animation.js:166-188 | the stored index has an update case exactly when p ≥ 0 or p is a multiple of 4 |
| Controls.ChangePattern | particle-animation.js:964-966 | handled indices cycle 0→1→2→3→0; an index in (-4, 0) climbs by 1; from any stored index the new one lies in (-4, 4), is congruent to the old index plus 1 modulo 4, is handled from -1 upwards and is at most 0 below -1 (so -5 goes to 0); no other setting, shadow or the surface changes |
| Controls.ChangePatternCycles | particle-animation.js:964-966 | four changes from a handled index return to it |
| Controls.ChangePatternRecovers | particle-animation.js:964-966 | three changes from a negative index reach a handled one |
| Controls.SetRotationSpeed | particle-animation.js:652-655 | both copies get the speed and nothing else changes |
| Controls.ChangeSpeed | particle-animation.js:972-980 | the speed moves from the shadow's value along 0.002→0.005→0.001→0.002, and anything else goes to 0.002; no other setting, shadow or the surface changes |
| Controls.ChangeSpeedCycles | particle-animation.js:972-980 | three changes return to a cycle speed; one change takes any other speed to 0.002; every change lands in the cycle |
| Controls.SetRingWidth | particle-animation.js:662-666 | the configured width is stored; the shadow keeps it only with scaling off (with scaling on, init overwrites it with the scaled width); the fade restarts and the layout is rebuilt |
| Controls.AdjustRingWidth | particle-animation.js:982-990 | the width moves from the shadow's value along 30→20→40→30, and anything else goes to 30 |
| Controls.AdjustRingWidthStuckWhenScaled | particle-animation.js:982-990 | with scaling on, and a scaled width other than 20 or 30, the second call stores 30 again |
| Controls.SetInnerRadius | particle-animation.js:668-672 | only the configured radius changes (in the shadow only with scaling off); surface and frame counter are kept; the fade restarts and the layout is rebuilt |
| Controls.SetParticleDensity | particle-animation.js:674-679 | the density and the count multiplier both become d; surface and frame counter are kept; the fade restarts and the layout is rebuilt |
| Controls.AdjustParticleCount | particle-animation.js:992-1000 | the density moves from the shadow's value along 3.0→1.5→5.0→3.0, anything else goes to 3.0, and the multiplier follows; no other setting, nor the surface or frame counter, changes |
| Controls.AdjustParticleCountCycles | particle-animation.js:992-1000 | three adjustments return to a cycle density; one takes any other density to 3.0 |
| Controls.SetTextVisible | particle-animation.js:766-774 | `showText()`/`hideText()` set visibility in both copies and change nothing else |
| Controls.SetText | particle-animation.js:756-764 | both lines are stored; the text becomes visible when either line is non-empty and is never hidden |
| Controls.ToggleTextVisibility | particle-animation.js:1008-1014 | visibility flips relative to the shadow, in both copies; no other setting, shadow or the surface changes |
| Controls.ToggleTextTwice | particle-animation.js:1008-1014 | toggling twice restores a coherent state |
| Controls.FloorDivision | particle-animation.js:715 | for n > 0, floor(t/n)·n ≤ t < (floor(t/n)+1)·n |
| Controls.FlatRequest | particle-animation.js:333-336 | an absolute policy with a whole base and increment 0 requests the base for every ring |
| Controls.FlatRequests | particle-animation.js:333-336 | the same for all rings at once |
| Controls.EvenPolicy | particle-animation.js:713-720 | mode `absolute`, a whole base, increment 0 and the other keys kept; every ring requests the base, and n bases fit in the total with less than one base to spare |
| Controls.SetAbsoluteParticleCount | particle-animation.js:713-720 | the count policy becomes the even split of the total over `ringGaps.length - 1` rings; the fade restarts and the layout is rebuilt |
| Controls.SurfaceFor | particle-animation.js:88-101 | both sides are used when both are non-zero, and 90% of the window otherwise |
| Controls.Resurface | particle-animation.js:88-101 | the surface and the canvas record take the same size; nothing else changes |
| Controls.SetCanvasSize | particle-animation.js:794-797 | the surface is resized, the fade restarts and the layout is rebuilt for the new size |
| Controls.ResurfaceSettles | particle-animation.js:88-101 | once the window has a non-zero size, setting the canvas to the width and height it records changes nothing |
| Controls.Resize | particle-animation.js:526-531 | with `autoResize` on, the surface becomes 90% of the window and the layout is rebuilt without restarting the fade; with it off, nothing changes |
| Controls.Merge | particle-animation.js:869-870 | for each of the fourteen top-level keys, a key the patch carries replaces the configured value whole, nested records included, and a key it lacks is kept; an empty patch changes nothing |
| Controls.MergeIdempotent | particle-animation.js:869-870 | merging a patch twice equals merging it once |
| Controls.MergeLaterWins | particle-animation.js:869-870 | two `updateConfig` merges equal one merge of the combined patch, so the later patch wins on every key both carry (in particular `particleCount`) |
| Controls.UpdateConfig | particle-animation.js:869-873 | the configuration becomes the shallow merge; the shadows are resynced, so the state is coherent afterwards whatever it was before; the fade restarts and the layout is rebuilt |
| Controls.FragmentWithoutLimitsEmptiesLayout | particle-animation.js:869-873 | a `particleCount` fragment without min or max limits leaves the rebuilt layout empty |
| Api.StoreSetting | particle-animation.js:636-825 | setting-only calls keep the particles, fade, surface and counter, and preserve coherence; `setConnections` stores enabled, distance and opacity, `setTextSize` both font sizes, `setAutoResize` the flag, and nothing else changes |
| Api.WithPolicy | particle-animation.js:682-711 | a count-policy setter stores the policy and rebuilds |
| Api.Recount | particle-animation.js:682-720 | each count-policy call changes only `particleCount`: `setParticleCountMode` sets the mode; `setBaseParticleCount` sets the base and keeps the increment when none is given; `setParticleMultiplier` sets the multiplier; `setParticleCountPerRing` sets the array and forces mode `perRing`; `setParticleCountLimits` sets both limits; `setAbsoluteParticleCount` stores the even split; then the fade restarts and the layout is rebuilt |
| Api.Reconfigure | particle-animation.js:662-791 | the other reinitializing calls restart the fade and rebuild the layout; for each call the new configuration is the old one with exactly the stored key replaced (size range, palette, gap ratios, scaling flag, base size, ring width, radius, density with multiplier, the cycled width or density, or the merge for `updateConfig`), and `reinitialize()` keeps it |
| Api.Resize | particle-animation.js:794-861 | each canvas call changes only the canvas record, which ends equal to the surface; the surface is what `setCanvasSize` makes of the call's width and height: `setCanvasWidth` pairs the new width with the recorded height and `setCanvasHeight` the recorded width with the new height, the ratio and fullscreen calls use the window, `setSquare` uses the side twice, the aspect call uses width / aspect; only `setCanvasSizeFixed` turns `autoResize` off; then the fade restarts and the layout is rebuilt |
| Api.Apply | particle-animation.js:623-873 | every call preserves coherence and the frame counter; exactly the `reinitialize()` callers restart the fade, and they and the bare `init()` callers rebuild the layout; the other calls keep particles, fade and surface |
| Api.Boot | particle-animation.js:1017-1024 | after the script loads, the state is coherent, the surface and canvas record are 90% of the window and the rest of the configuration is as given; unless it starts paused, the synchronous first `animate()` has run: counter 1, fade 0.02, and each particle is the fresh layout's particle advanced once; a paused start is at frame 0, fade 0 with the fresh layout |
| Api.FirstFrameLines | particle-animation.js:381-408 | the first running frame after the fade-in restarts (which `Api.Apply` ensures for every `reinitialize()` caller) draws at fade 0.02 (js:448-468); the lines it strokes are exactly the close pairs of the advanced particles (none with connections off), in loop order, each with alpha at most 0.02·opacity |
| Api.CommandsKeepCoherent | particle-animation.js:623-873 | any admissible sequence of calls from a coherent state stays coherent and keeps the counter |
| Api.CountPerRing | particle-animation.js:728-735 | a bucket floor(distance/50) is a key exactly when some particle falls in it, and maps to that count |
| Api.FramesKeepCensus | particle-animation.js:151-226 | under such an update, `getParticleCountPerRing()` and `getParticleCount()` read the same after any number of frames |
| Api.ParticleCount | particle-animation.js:723-725 | the list length, which equals the total of `getParticleCountPerRing()` |
| Presets.Saturn | particle-animation.js:877-891 | drops both count limits, keeps gaps, scaling, sizes, connections, text, canvas, pattern and pause; merged into the defaults it gives the defaults back without the limits |
| Presets.Galaxy | particle-animation.js:893-907 | a `density` fragment without limits; keeps gaps, scaling, sizes, connections, text, canvas, pattern and pause |
| Presets.Nebula | particle-animation.js:909-923 | a `density` fragment without limits; keeps gaps, scaling, sizes, connections, text, canvas, pattern and pause |
| Presets.Minimal | particle-animation.js:926-935 | an `absolute` fragment without limits, and the merge changes `particleCount` only |
| Presets.MinimalRequests | particle-animation.js:926-935 | the `minimal()` fragment asks ring i for 15 + 3i |
| Presets.Dense | particle-animation.js:937-946 | a `density` fragment without limits, and the merge changes `particleCount` only |
| Presets.Custom | particle-animation.js:948-955 | a `perRing` fragment with the given counts, no base and no limits, and the merge changes `particleCount` only |
| Presets.PresetEmptiesLayout | particle-animation.js:876-956 | applying any preset with `updateConfig` leaves `minParticles` undefined and the layout empty |
| RingConfig.DefaultsAgreeAtBaseSize | particle-animation.js:5-68 | the default ratios times `baseSize` 800 give the default inner radius, ring width and all nine gaps, and `minParticles` ≤ `maxParticles` |
| Scenarios.ScaledDefaultsAtBaseSize | particle-animation.js:305-320 | on a canvas whose smaller side is 800, the default scaled geometry equals the default absolute one |
| Scenarios.DefaultRequests | particle-animation.js:18-26 | the default policy asks ring i for 60 + 14i |
| Scenarios.DefaultRingTwoRequests88 | particle-animation.js:348-353 | the default ring 2 requests 88 |
| Scenarios.DefaultQuota | particle-animation.js:356-360 | with the defaults, on any canvas there are 8 rings and ring i creates 60 + 14i particles |
| Scenarios.DefaultLayoutHolds872 | particle-animation.js:298-378 | the default layout holds 872 particles on any canvas |
| Scenarios.AbsoluteEightHundred | particle-animation.js:713-720 | `setAbsoluteParticleCount(800)` with nine gaps asks every ring for 100 |
| Scenarios.MinimumNotReached | particle-animation.js:357-360 | because the clamp divides by the 9 gap entries, zero requests give 8 × ceil(50/9) = 48 particles, below `minParticles` = 50 |

## Left out

- Canvas rendering (`draw`, `drawShape`, `drawCenter`, `drawCenterText`, gradients, `globalAlpha`). These are side effects on the 2D context. `drawConnections` is modelled as the list of lines it would stroke.
- `Particle.update` (151-226). This is floating-point trigonometry with a per-frame `Math.random`, and `Engine.Tick` takes it as a parameter. Only which fields it leaves alone is stated, as `Engine.KeepsOrbit`. Only its pattern `switch` enters the model, through `Controls.Handled`.
- Scheduling: `requestAnimationFrame`, `stop()`, and the second frame loop that `start()` launches. `Start` is modelled as its `init()` only; the synchronous `animate()` that follows is one `Engine.Tick` of the result, as `Api.Boot` shows for start-up.
- Browser glue. The canvas element truncates its sizes to integers, but the surface keeps the sizes as given. The `window.inner*` values and the text-input `trim()` are host inputs.
- `getConfig()` returns a shallow copy whose nested records alias the live configuration. Values are immutable here, so that aliasing is not modelled.
- Infinities, `-0` and IEEE rounding. Numbers are exact reals, and the fade reaches 1 after exactly 50 frames only in exact arithmetic.
- The first definitions of the legacy controls (483-523, 607-620). The later declarations at 964-1014 replace them.
- Pattern indices are modelled as integers. The source stores `p % 4` for a fractional p too (5.5 becomes 1.5), and no update case handles a fractional index.
- A `perRing` entry is a `Num`. Falsy non-numbers (`null`, `''`) behave like 0 and fall back to the formula. Truthy non-numeric entries are not modelled.
- Connections.SelectConnections: takes any non-negative distance function. Symmetry is not needed for the stated properties, so it is not required.
- Controls.SetAbsoluteParticleCount: requires `ringGaps.length != 1`. With one entry the source divides by 0 and stores `Infinity` or NaN, which the model does not represent.
- Api.Apply: requires a non-zero aspect ratio for `setCanvasSizeWithAspectRatio`, for the same reason.
- Controls.Merge: every nested record in a patch is complete. `Object.assign` also stores a partial one, and its missing keys then read as undefined. For example, `{particleSize: {min: 1}}` gives every particle a NaN radius, and `{scaling: {enabled: true}}` makes `init()` throw at `ringGapRatios.map` after emptying the list. Only a `particleCount` fragment may lack keys here.
- Api.ApplyAll: one `Env` serves a whole command sequence, so two `reinitialize()` calls in a row rebuild the same layout. The source draws fresh `Math.random()` values at every `init()`; the properties stated over sequences (coherence, the frame counter) do not depend on the draws.
- `getCanvasSize()` (840-845) reads the canvas element, which is the state's `surface` field; it has no member of its own.

=== FILE: animation.dfy ===
/**
 * The animation's mutable state: the configuration, the legacy module-level
 * copies of some of its fields, the canvas surface, the particle list, the
 * frame counter and the fade-in progress; `init()`, `reinitialize()` and the
 * bookkeeping half of one `animate()` frame.
 */
module Engine {
  import opened Options
  import opened JsNumber
  import opened RingConfig
  import opened Particles
  import opened Layout

  /** The drawing surface (`canvas.width`, `canvas.height`). */
  datatype Size = Size(width: real, height: real)

  /**
   * The module-level variables kept for the older controls (`paused`,
   * `currentPattern`, ...). `animate()` tests the `paused` copy, and
   * `changeSpeed`, `adjustRingWidth`, `adjustParticleCount` and
   * `toggleTextVisibility` read their copies; `changePattern` and
   * `togglePause` read the configuration instead.
   */
  datatype Shadow = Shadow(
    paused: bool,
    currentPattern: int,
    rotationSpeed: real,
    ringWidth: real,
    innerRadius: real,
    particleDensity: real,
    text1: string,
    text2: string,
    showText: bool)

  datatype Animation = Animation(
    config: Config,
    shadow: Shadow,
    surface: Size,
    particles: seq<Particle>,
    time: nat,
    fade: real)

  /** `syncVariables()`: every shadow copied from the configuration. */
  function Sync(cfg: Config): (sh: Shadow)
    ensures sh.paused == cfg.paused && sh.currentPattern == cfg.currentPattern
    ensures sh.rotationSpeed == cfg.rotationSpeed && sh.particleDensity == cfg.particleDensity
    ensures sh.ringWidth == cfg.ringWidth && sh.innerRadius == cfg.innerRadius
    ensures sh.text1 == cfg.text.line1 && sh.text2 == cfg.text.line2 && sh.showText == cfg.text.visible
  {
    Shadow(cfg.paused, cfg.currentPattern, cfg.rotationSpeed, cfg.ringWidth, cfg.innerRadius,
           cfg.particleDensity, cfg.text.line1, cfg.text.line2, cfg.text.visible)
  }

  /**
   * The shadows agree with the configuration on every field the API setters
   * write to both. `ringWidth` and `innerRadius` are not included: with
   * scaling on, `init()` overwrites those two shadows with scaled values.
   */
  predicate Coherent(s: Animation) {
    && s.shadow.paused == s.config.paused
    && s.shadow.currentPattern == s.config.currentPattern
    && s.shadow.rotationSpeed == s.config.rotationSpeed
    && s.shadow.particleDensity == s.config.particleDensity
    && s.shadow.text1 == s.config.text.line1
    && s.shadow.text2 == s.config.text.line2
    && s.shadow.showText == s.config.text.visible
  }

  /** The layout `init()` would build for the current configuration and surface. */
  function LayoutOf(s: Animation, draws: DrawSource): seq<Particle> {
    BuildLayout(s.config, s.surface.width, s.surface.height, draws)
  }

  /**
   * `init()`: the particle list is rebuilt from scratch (the old particles
   * play no part); with scaling on, the `innerRadius` and `ringWidth` shadows
   * take the scaled values. The fade-in progress is left alone.
   */
  function Init(s: Animation, draws: DrawSource): (r: Animation)
    ensures r.config == s.config && r.surface == s.surface && r.time == s.time && r.fade == s.fade
    ensures r.particles == LayoutOf(s, draws)
    ensures s.config.scaling.enabled ==>
      var size := CanvasSize(s.surface.width, s.surface.height);
      && r.shadow.innerRadius == size * s.config.scaling.innerRadiusRatio
      && r.shadow.ringWidth == size * s.config.scaling.ringWidthRatio
      && r.shadow == s.shadow.(innerRadius := r.shadow.innerRadius, ringWidth := r.shadow.ringWidth)
    ensures !s.config.scaling.enabled ==> r.shadow == s.shadow
    ensures Coherent(s) ==> Coherent(r)
  {
    var shadow :=
      if s.config.scaling.enabled then
        var size := CanvasSize(s.surface.width, s.surface.height);
        s.shadow.(innerRadius := size * s.config.scaling.innerRadiusRatio,
                  ringWidth := size * s.config.scaling.ringWidthRatio)
      else s.shadow;
    s.(shadow := shadow, particles := LayoutOf(s, draws))
  }

  /** `reinitialize()`: the fade-in restarts from 0, then `init()`. */
  function Reinitialize(s: Animation, draws: DrawSource): (r: Animation)
    ensures r.fade == 0.0 && r.time == s.time
    ensures r.config == s.config && r.surface == s.surface
    ensures r.particles == LayoutOf(s, draws)
    ensures Coherent(s) ==> Coherent(r)
  {
    Init(s.(fade := 0.0), draws)
  }

  /** The fade-in step of one frame: `min(1, fade + 0.02)` while below 1. */
  function FadeStep(f: real): (g: real)
    ensures f >= 1.0 ==> g == f
    ensures f <= 0.98 ==> g == f + 0.02
    ensures 0.98 < f < 1.0 ==> g == 1.0
    ensures g >= f
    ensures 0.0 <= f <= 1.0 ==> 0.0 <= g <= 1.0
  {
    if f < 1.0 then MinReal(1.0, f + 0.02) else f
  }

  /** The fade-in progress after n unpaused frames. */
  function FadeAfter(f: real, n: nat): real {
    if n == 0 then f else FadeStep(FadeAfter(f, n - 1))
  }

  /** From 0, the fade-in progress after n frames is `min(1, 0.02 · n)`. */
  lemma {:induction false} FadeFromZero(n: nat)
    ensures FadeAfter(0.0, n) == MinReal(1.0, 0.02 * n as real)
  {
    if n > 0 {
      FadeFromZero(n - 1);
    }
  }

  /** The fade-in completes after exactly 50 frames from 0. */
  lemma FadeCompletesIn50(n: nat)
    ensures FadeAfter(0.0, n) == 1.0 <==> n >= 50
    ensures 0.0 <= FadeAfter(0.0, n) <= 1.0
  {
    FadeFromZero(n);
  }

  /** Starting inside [0, 1], the progress stays there and never decreases. */
  lemma {:induction false} FadeStaysInUnit(f: real, n: nat)
    requires 0.0 <= f <= 1.0
    ensures f <= FadeAfter(f, n) <= 1.0
  {
    if n > 0 {
      FadeStaysInUnit(f, n - 1);
    }
  }

  /**
   * The state half of one `animate()` frame. A paused frame (by the `paused`
   * shadow, which is what `animate()` tests) changes nothing. Otherwise the
   * frame counter advances, the fade-in steps and every particle is advanced
   * in place by `Particle.update()`, given here as `advance`.
   */
  function Tick(s: Animation, advance: Particle -> Particle): (r: Animation)
    ensures s.shadow.paused ==> r == s
    ensures !s.shadow.paused ==>
      && r.time == s.time + 1
      && r.fade == FadeStep(s.fade)
      && |r.particles| == |s.particles|
      && (forall k :: 0 <= k < |s.particles| ==> r.particles[k] == advance(s.particles[k]))
      && r.config == s.config && r.shadow == s.shadow && r.surface == s.surface
  {
    if s.shadow.paused then s
    else
      s.(time := s.time + 1,
         fade := FadeStep(s.fade),
         particles := seq(|s.particles|, k requires 0 <= k < |s.particles| => advance(s.particles[k])))
  }

  /**
   * What `Particle.update()` leaves alone: it rewrites only the angle, the
   * wobble angles and offsets, the position, opacity, radius and rotation, so
   * the orbit distance, colour, shape and every base or speed field survive.
   */
  ghost predicate KeepsOrbit(advance: Particle -> Particle) {
    forall p: Particle ::
      var q := advance(p);
      q == p.(angle := q.angle, randomAngleX := q.randomAngleX, randomAngleY := q.randomAngleY,
              randomOffsetX := q.randomOffsetX, randomOffsetY := q.randomOffsetY,
              x := q.x, y := q.y, opacity := q.opacity, radius := q.radius, rotation := q.rotation)
  }

  /** n frames in a row. */
  function Frames(s: Animation, advance: Particle -> Particle, n: nat): Animation {
    if n == 0 then s else Tick(Frames(s, advance, n - 1), advance)
  }

  /**
   * Frames alone never touch the pause flag, so n frames of a running
   * animation advance the counter by n and the fade-in by n steps, keeping the
   * particle count; n frames of a paused one change nothing.
   */
  lemma {:induction false} FramesAdvance(s: Animation, advance: Particle -> Particle, n: nat)
    ensures s.shadow.paused ==> Frames(s, advance, n) == s
    ensures !s.shadow.paused ==>
      && Frames(s, advance, n).time == s.time + n
      && Frames(s, advance, n).fade == FadeAfter(s.fade, n)
      && |Frames(s, advance, n).particles| == |s.particles|
      && Frames(s, advance, n).config == s.config
      && Frames(s, advance, n).shadow == s.shadow
  {
    if n > 0 {
      FramesAdvance(s, advance, n - 1);
    }
  }

  /** Under such an update, any number of frames keeps each particle's orbit distance and colour. */
  lemma {:induction false} FramesKeepOrbits(s: Animation, advance: Particle -> Particle, n: nat)
    requires KeepsOrbit(advance)
    ensures |Frames(s, advance, n).particles| == |s.particles|
    ensures forall k :: 0 <= k < |s.particles| ==>
      && Frames(s, advance, n).particles[k].distance == s.particles[k].distance
      && Frames(s, advance, n).particles[k].color == s.particles[k].color
  {
    if n > 0 {
      FramesKeepOrbits(s, advance, n - 1);
      var t := Frames(s, advance, n - 1);
      forall k | 0 <= k < |s.particles|
        ensures Frames(s, advance, n).particles[k].distance == s.particles[k].distance
        ensures Frames(s, advance, n).particles[k].color == s.particles[k].color
      {
        if !t.shadow.paused {
          var p := t.particles[k];
          assert Frames(s, advance, n).particles[k] == advance(p);
        }
      }
    }
  }
}

=== FILE: api.dfy ===
/**
 * The public control object and the legacy controls as one command
 * interpreter: every call the page can make, dispatched to its effect on the
 * animation state.
 */
module Api {
  import opened Options
  import opened JsNumber
  import opened RingConfig
  import opened Particles
  import opened Layout
  import opened Engine
  import opened Histogram
  import C = Controls
  import Conn = Connections

  datatype Command =
    // public control object
    | Start
    | Pause
    | Resume
    | TogglePause
    | SetRotationSpeed(speed: real)
    | SetPattern(index: int)
    | SetRingWidth(width: real)
    | SetInnerRadius(radius: real)
    | SetParticleDensity(density: real)
    | SetParticleCountMode(modeName: string)
    | SetBaseParticleCount(baseCount: Num, increment: Option<Num>)
    | SetParticleMultiplier(multiplier: Num)
    | SetParticleCountPerRing(counts: Option<seq<Num>>)
    | SetParticleCountLimits(minimum: Num, maximum: Num)
    | SetAbsoluteParticleCount(total: real)
    | SetParticleSize(smallest: real, largest: real)
    | SetColors(palette: seq<string>)
    | SetConnections(enabled: bool, maxDistance: real, opacity: real)
    | SetText(line1: string, line2: string)
    | ShowText
    | HideText
    | SetTextSize(fontSize1: real, fontSize2: real)
    | SetRingGaps(gaps: seq<real>)
    | Reinitialize
    | SetCanvasSize(width: real, height: real)
    | SetCanvasWidth(width: real)
    | SetCanvasHeight(height: real)
    | SetCanvasSizeRatio(widthRatio: real, heightRatio: real)
    | SetCanvasSizeFixed(width: real, height: real)
    | SetAutoResize(autoResize: bool)
    | SetScaling(scaling: bool)
    | SetBaseSize(baseSize: real)
    | SetFullscreen
    | SetSquare(side: real)
    | SetCanvasSizeWithAspectRatio(width: real, aspectRatio: real)
    | UpdateConfig(patch: C.Patch)
    // legacy controls
    | ChangePattern
    | ChangeSpeed
    | AdjustRingWidth
    | AdjustParticleCount
    | UpdateCenterText(text1: string, text2: string)
    | ToggleTextVisibility
    // window
    | WindowResized

  /** How a call affects the layout. */
  datatype Kind =
    | Storing        // stores settings only
    | Recounting     // changes the count policy, then `reinitialize()`
    | Reconfiguring  // changes another part of the configuration, then `reinitialize()`
    | Resizing       // resizes the canvas, then `reinitialize()`
    | Starting       // `start()`: a bare `init()`
    | Resized        // the window `resize` listener

  function KindOf(cmd: Command): Kind {
    match cmd
    case Pause | Resume | TogglePause | SetRotationSpeed(_) | SetPattern(_) | SetConnections(_, _, _)
       | SetText(_, _) | ShowText | HideText | SetTextSize(_, _) | SetAutoResize(_) | ChangePattern
       | ChangeSpeed | UpdateCenterText(_, _) | ToggleTextVisibility => Storing
    case SetParticleCountMode(_) | SetBaseParticleCount(_, _) | SetParticleMultiplier(_)
       | SetParticleCountPerRing(_) | SetParticleCountLimits(_, _) | SetAbsoluteParticleCount(_) => Recounting
    case SetRingWidth(_) | SetInnerRadius(_) | SetParticleDensity(_) | SetParticleSize(_, _) | SetColors(_)
       | SetRingGaps(_) | Reinitialize | SetScaling(_) | SetBaseSize(_) | UpdateConfig(_) | AdjustRingWidth
       | AdjustParticleCount => Reconfiguring
    case SetCanvasSize(_, _) | SetCanvasWidth(_) | SetCanvasHeight(_) | SetCanvasSizeRatio(_, _)
       | SetCanvasSizeFixed(_, _) | SetFullscreen | SetSquare(_) | SetCanvasSizeWithAspectRatio(_, _) => Resizing
    case Start => Starting
    case WindowResized => Resized
  }

  /** The commands that end in `reinitialize()`: fade-in restarts and the layout is rebuilt. */
  predicate Rebuilds(cmd: Command) {
    KindOf(cmd) == Recounting || KindOf(cmd) == Reconfiguring || KindOf(cmd) == Resizing
  }

  /** The commands that run a bare `init()`: the layout is rebuilt but the fade-in goes on. */
  predicate Relayouts(s: Animation, cmd: Command) {
    KindOf(cmd) == Starting || (KindOf(cmd) == Resized && s.config.canvas.autoResize)
  }

  /** The calls whose arguments the model covers: no division by zero. */
  predicate Admissible(s: Animation, cmd: Command) {
    && (cmd.SetAbsoluteParticleCount? ==> |s.config.ringGaps| != 1)
    && (cmd.SetCanvasSizeWithAspectRatio? ==> cmd.aspectRatio != 0.0)
  }

  /** r is s after `reinitialize()`: fade-in restarted, layout rebuilt for r's configuration and surface. */
  predicate Rebuilt(s: Animation, r: Animation, env: C.Env) {
    && r.fade == 0.0 && r.particles == LayoutOf(r, env.draws) && r.time == s.time
    && (Coherent(s) ==> Coherent(r))
  }

  /** r differs from s in stored settings only. */
  predicate Stored(s: Animation, r: Animation) {
    && r.particles == s.particles && r.fade == s.fade && r.surface == s.surface && r.time == s.time
    && (Coherent(s) ==> Coherent(r))
  }

  function StoreSetting(s: Animation, cmd: Command): (r: Animation)
    requires KindOf(cmd) == Storing
    ensures Stored(s, r)
    ensures cmd.SetConnections? ==>
      && r.config == s.config.(connections := s.config.connections.(
           enabled := cmd.enabled, maxDistance := cmd.maxDistance, opacity := cmd.opacity))
      && r.shadow == s.shadow
    ensures cmd.SetTextSize? ==>
      && r.config == s.config.(text := s.config.text.(fontSize1 := cmd.fontSize1, fontSize2 := cmd.fontSize2))
      && r.shadow == s.shadow
    ensures cmd.SetAutoResize? ==>
      r.config == s.config.(canvas := s.config.canvas.(autoResize := cmd.autoResize)) && r.shadow == s.shadow
  {
    var cfg := s.config;
    match cmd
    case Pause => C.SetPaused(s, true)
    case Resume => C.SetPaused(s, false)
    case TogglePause => C.TogglePause(s)
    case SetRotationSpeed(v) => C.SetRotationSpeed(s, v)
    case SetPattern(p) => C.SetPattern(s, p)
    case SetConnections(on, d, o) =>
      s.(config := cfg.(connections := cfg.connections.(enabled := on, maxDistance := d, opacity := o)))
    case SetText(a, b) => C.SetText(s, a, b)
    case ShowText => C.SetTextVisible(s, true)
    case HideText => C.SetTextVisible(s, false)
    case SetTextSize(f1, f2) => s.(config := cfg.(text := cfg.text.(fontSize1 := f1, fontSize2 := f2)))
    case SetAutoResize(on) => s.(config := cfg.(canvas := cfg.canvas.(autoResize := on)))
    case ChangePattern => C.ChangePattern(s)
    case ChangeSpeed => C.ChangeSpeed(s)
    case UpdateCenterText(a, b) => C.SetText(s, a, b)
    case ToggleTextVisibility => C.ToggleTextVisibility(s)
  }

  function Recount(s: Animation, cmd: Command, env: C.Env): (r: Animation)
    requires KindOf(cmd) == Recounting && Admissible(s, cmd)
    ensures Rebuilt(s, r, env) && r.surface == s.surface
    ensures r.config == s.config.(particleCount := r.config.particleCount)
    ensures cmd.SetParticleCountMode? ==>
      r.config.particleCount == s.config.particleCount.(mode := ModeOf(cmd.modeName))
    ensures cmd.SetBaseParticleCount? ==>
      && r.config.particleCount.baseCount == cmd.baseCount
      && (cmd.increment.Some? ==> r.config.particleCount.increment == cmd.increment.value)
      && (cmd.increment.None? ==> r.config.particleCount.increment == s.config.particleCount.increment)
      && r.config.particleCount
         == s.config.particleCount.(baseCount := cmd.baseCount, increment := r.config.particleCount.increment)
    ensures cmd.SetParticleMultiplier? ==>
      r.config.particleCount == s.config.particleCount.(multiplier := cmd.multiplier)
    ensures cmd.SetParticleCountPerRing? ==>
      && r.config.particleCount.mode == PerRing
      && r.config.particleCount.perRingCounts == cmd.counts
      && r.config.particleCount == s.config.particleCount.(mode := PerRing, perRingCounts := cmd.counts)
    ensures cmd.SetParticleCountLimits? ==>
      r.config.particleCount == s.config.particleCount.(minParticles := cmd.minimum, maxParticles := cmd.maximum)
    ensures cmd.SetAbsoluteParticleCount? ==>
      r.config.particleCount == C.EvenPolicy(s.config.particleCount, |s.config.ringGaps| - 1, cmd.total)
  {
    var pol := s.config.particleCount;
    match cmd
    case SetParticleCountMode(name) => WithPolicy(s, pol.(mode := ModeOf(name)), env)
    case SetBaseParticleCount(b, inc) =>
      WithPolicy(s, pol.(baseCount := b, increment := if inc.Some? then inc.value else pol.increment), env)
    case SetParticleMultiplier(m) => WithPolicy(s, pol.(multiplier := m), env)
    case SetParticleCountPerRing(counts) => WithPolicy(s, pol.(mode := PerRing, perRingCounts := counts), env)
    case SetParticleCountLimits(lo, hi) => WithPolicy(s, pol.(minParticles := lo, maxParticles := hi), env)
    case SetAbsoluteParticleCount(t) => C.SetAbsoluteParticleCount(s, t, env)
  }

  function WithPolicy(s: Animation, pol: CountPolicy, env: C.Env): (r: Animation)
    ensures r.config == s.config.(particleCount := pol) && r.surface == s.surface
    ensures Rebuilt(s, r, env)
  {
    Engine.Reinitialize(s.(config := s.config.(particleCount := pol)), env.draws)
  }

  /** The reconfiguring calls that also write a shadow variable, or resync all of them. */
  predicate TouchesShadow(cmd: Command) {
    cmd.SetRingWidth? || cmd.SetInnerRadius? || cmd.SetParticleDensity? || cmd.UpdateConfig?
    || cmd.AdjustRingWidth? || cmd.AdjustParticleCount?
  }

  function Reconfigure(s: Animation, cmd: Command, env: C.Env): (r: Animation)
    requires KindOf(cmd) == Reconfiguring
    ensures Rebuilt(s, r, env) && r.surface == s.surface
    ensures cmd.SetRingWidth? ==> r.config == s.config.(ringWidth := cmd.width)
    ensures cmd.SetInnerRadius? ==> r.config == s.config.(innerRadius := cmd.radius)
    ensures cmd.SetParticleDensity? ==>
      r.config == s.config.(particleDensity := cmd.density,
                            particleCount := s.config.particleCount.(multiplier := Finite(cmd.density)))
    ensures cmd.UpdateConfig? ==> r.config == C.Merge(s.config, cmd.patch) && Coherent(r)
    ensures cmd.AdjustRingWidth? ==> r.config == s.config.(ringWidth := C.NextRingWidth(s.shadow.ringWidth))
    ensures cmd.AdjustParticleCount? ==>
      var d := C.NextDensity(s.shadow.particleDensity);
      r.config == s.config.(particleDensity := d, particleCount := s.config.particleCount.(multiplier := Finite(d)))
    ensures cmd.SetParticleSize? ==> r.config == s.config.(particleSize := SizeRange(cmd.smallest, cmd.largest))
    ensures cmd.SetColors? ==> r.config == s.config.(colors := cmd.palette)
    ensures cmd.SetRingGaps? ==> r.config == s.config.(ringGaps := cmd.gaps)
    ensures cmd.Reinitialize? ==> r.config == s.config
    ensures cmd.SetScaling? ==> r.config == s.config.(scaling := s.config.scaling.(enabled := cmd.scaling))
    ensures cmd.SetBaseSize? ==> r.config == s.config.(scaling := s.config.scaling.(baseSize := cmd.baseSize))
  {
    if TouchesShadow(cmd) then Reshape(s, cmd, env)
    else Engine.Reinitialize(s.(config := Restyled(s.config, cmd)), env.draws)
  }

  function Reshape(s: Animation, cmd: Command, env: C.Env): (r: Animation)
    requires TouchesShadow(cmd)
    ensures Rebuilt(s, r, env) && r.surface == s.surface
    ensures cmd.SetRingWidth? ==> r.config == s.config.(ringWidth := cmd.width)
    ensures cmd.SetInnerRadius? ==> r.config == s.config.(innerRadius := cmd.radius)
    ensures cmd.SetParticleDensity? ==>
      r.config == s.config.(particleDensity := cmd.density,
                            particleCount := s.config.particleCount.(multiplier := Finite(cmd.density)))
    ensures cmd.UpdateConfig? ==> r.config == C.Merge(s.config, cmd.patch) && Coherent(r)
    ensures cmd.AdjustRingWidth? ==> r.config == s.config.(ringWidth := C.NextRingWidth(s.shadow.ringWidth))
    ensures cmd.AdjustParticleCount? ==>
      var d := C.NextDensity(s.shadow.particleDensity);
      r.config == s.config.(particleDensity := d, particleCount := s.config.particleCount.(multiplier := Finite(d)))
  {
    match cmd
    case SetRingWidth(w) => C.SetRingWidth(s, w, env)
    case SetInnerRadius(x) => C.SetInnerRadius(s, x, env)
    case SetParticleDensity(d) => C.SetParticleDensity(s, d, env)
    case UpdateConfig(p) => C.UpdateConfig(s, p, env)
    case AdjustRingWidth => C.AdjustRingWidth(s, env)
    case AdjustParticleCount => C.AdjustParticleCount(s, env)
  }

  /** The configuration a setter that touches no shadow stores before `reinitialize()`. */
  function Restyled(cfg: Config, cmd: Command): Config {
    match cmd
    case SetParticleSize(lo, hi) => cfg.(particleSize := SizeRange(lo, hi))
    case SetColors(palette) => cfg.(colors := palette)
    case SetRingGaps(gaps) => cfg.(ringGaps := gaps)
    case SetScaling(on) => cfg.(scaling := cfg.scaling.(enabled := on))
    case SetBaseSize(size) => cfg.(scaling := cfg.scaling.(baseSize := size))
    case _ => cfg
  }

  function Resize(s: Animation, cmd: Command, env: C.Env): (r: Animation)
    requires KindOf(cmd) == Resizing && Admissible(s, cmd)
    ensures Rebuilt(s, r, env)
    ensures r.config == s.config.(canvas := r.config.canvas)
    ensures r.config.canvas.width == r.surface.width && r.config.canvas.height == r.surface.height
    ensures cmd.SetCanvasSizeFixed? ==> !r.config.canvas.autoResize
    ensures !cmd.SetCanvasSizeFixed? ==> r.config.canvas.autoResize == s.config.canvas.autoResize
    ensures cmd.SetCanvasSize? || cmd.SetCanvasSizeFixed? ==> r.surface == C.SurfaceFor(cmd.width, cmd.height, env)
    ensures cmd.SetCanvasWidth? ==> r.surface == C.SurfaceFor(cmd.width, s.config.canvas.height, env)
    ensures cmd.SetCanvasHeight? ==> r.surface == C.SurfaceFor(s.config.canvas.width, cmd.height, env)
    ensures cmd.SetCanvasSizeRatio? ==>
      r.surface == C.SurfaceFor(env.windowWidth * cmd.widthRatio, env.windowHeight * cmd.heightRatio, env)
    ensures cmd.SetFullscreen? ==> r.surface == C.SurfaceFor(env.windowWidth, env.windowHeight, env)
    ensures cmd.SetSquare? ==> r.surface == C.SurfaceFor(cmd.side, cmd.side, env)
    ensures cmd.SetCanvasSizeWithAspectRatio? ==>
      r.surface == C.SurfaceFor(cmd.width, cmd.width / cmd.aspectRatio, env)
  {
    var cfg := s.config;
    var kept := if cmd.SetCanvasSizeFixed? then s.(config := cfg.(canvas := cfg.canvas.(autoResize := false))) else s;
    var size := SizeAsked(s, cmd, env);
    C.SetCanvasSize(kept, size.width, size.height, env)
  }

  /** The width and height a canvas call passes to the module-level `setCanvasSize`. */
  function SizeAsked(s: Animation, cmd: Command, env: C.Env): Size
    requires KindOf(cmd) == Resizing && Admissible(s, cmd)
  {
    var cfg := s.config;
    match cmd
    case SetCanvasSize(w, h) => Size(w, h)
    case SetCanvasWidth(w) => Size(w, cfg.canvas.height)
    case SetCanvasHeight(h) => Size(cfg.canvas.width, h)
    case SetCanvasSizeRatio(wr, hr) => Size(env.windowWidth * wr, env.windowHeight * hr)
    case SetCanvasSizeFixed(w, h) => Size(w, h)
    case SetFullscreen => Size(env.windowWidth, env.windowHeight)
    case SetSquare(side) => Size(side, side)
    case SetCanvasSizeWithAspectRatio(w, a) => Size(w, w / a)
  }

  /**
   * One call's effect. Only the commands that end in `reinitialize()` restart
   * the fade-in; they and the bare `init()` callers rebuild the layout from
   * the new configuration and surface; every other command leaves the
   * particles, the fade-in and the surface alone. No command moves the
   * frame counter, and none breaks the agreement of shadows and configuration.
   */
  function Apply(s: Animation, cmd: Command, env: C.Env): (r: Animation)
    requires Admissible(s, cmd)
    ensures Coherent(s) ==> Coherent(r)
    ensures r.time == s.time
    ensures Rebuilds(cmd) ==> r.fade == 0.0 && r.particles == LayoutOf(r, env.draws)
    ensures Relayouts(s, cmd) ==> r.fade == s.fade && r.particles == LayoutOf(r, env.draws)
    ensures !Rebuilds(cmd) && !Relayouts(s, cmd) ==>
      r.particles == s.particles && r.fade == s.fade && r.surface == s.surface
    ensures KindOf(cmd) != Resizing && KindOf(cmd) != Resized ==> r.surface == s.surface
  {
    match KindOf(cmd)
    case Storing => StoreSetting(s, cmd)
    case Recounting => Recount(s, cmd, env)
    case Reconfiguring => Reconfigure(s, cmd, env)
    case Resizing => Resize(s, cmd, env)
    case Starting => Init(s, env.draws)
    case Resized => C.Resize(s, env)
  }

  /**
   * `getParticleCountPerRing()`: a bucket `floor(distance / 50)` is a key
   * exactly when some particle falls in it, and maps to how many do.
   */
  function CountPerRing(s: Animation): (h: map<int, nat>)
    ensures forall b :: b in h <==> Occurrences(s.particles, b) > 0
    ensures forall b :: b in h ==> h[b] == Occurrences(s.particles, b)
  {
    Census(s.particles)
  }

  /** `getCurrentParticleCount()`: the list length, which is also the total of the per-ring census. */
  function ParticleCount(s: Animation): (n: nat)
    ensures n == |s.particles|
    ensures n == Total(CountPerRing(s))
  {
    CensusTotal(s.particles);
    |s.particles|
  }

  /**
   * What the script does when it loads: `syncVariables()`, `setCanvasSize()`
   * with no arguments (90% of the window), `init()`, then one synchronous
   * `animate()` frame, with `Particle.update()` given as `advance`. Unless
   * the configuration starts paused, that frame has already run: the counter
   * is 1, the fade-in is at 0.02 and every particle of the fresh layout has
   * been advanced once.
   */
  function Boot(cfg: Config, env: C.Env, advance: Particle -> Particle): (s: Animation)
    ensures Coherent(s)
    ensures s.surface == Size(env.windowWidth * 0.9, env.windowHeight * 0.9)
    ensures s.config == cfg.(canvas := cfg.canvas.(width := s.surface.width, height := s.surface.height))
    ensures cfg.paused ==> s.time == 0 && s.fade == 0.0 && s.particles == LayoutOf(s, env.draws)
    ensures !cfg.paused ==>
      && s.time == 1 && s.fade == 0.02
      && |s.particles| == |LayoutOf(s, env.draws)|
      && forall k :: 0 <= k < |s.particles| ==> s.particles[k] == advance(LayoutOf(s, env.draws)[k])
  {
    var z := C.SurfaceFor(0.0, 0.0, env);
    var blank := Animation(cfg.(canvas := cfg.canvas.(width := z.width, height := z.height)), Sync(cfg), z, [], 0, 0.0);
    Tick(Init(blank, env.draws), advance)
  }

  /**
   * Frames never move a particle between census buckets: `update()` keeps
   * every orbit distance, so `getParticleCountPerRing()` reads the same
   * after any number of frames as right after `init()`.
   */
  lemma FramesKeepCensus(s: Animation, advance: Particle -> Particle, n: nat)
    requires KeepsOrbit(advance)
    ensures CountPerRing(Frames(s, advance, n)) == CountPerRing(s)
    ensures ParticleCount(Frames(s, advance, n)) == ParticleCount(s)
  {
    FramesKeepOrbits(s, advance, n);
    SameBucketsSameCensus(Frames(s, advance, n).particles, s.particles);
  }

  /** Running a sequence of commands, each admissible in the state it meets. */
  predicate Runs(s: Animation, cmds: seq<Command>, env: C.Env)
    decreases |cmds|
  {
    |cmds| == 0 || (Admissible(s, cmds[0]) && Runs(Apply(s, cmds[0], env), cmds[1..], env))
  }

  function ApplyAll(s: Animation, cmds: seq<Command>, env: C.Env): Animation
    requires Runs(s, cmds, env)
    decreases |cmds|
  {
    if |cmds| == 0 then s else ApplyAll(Apply(s, cmds[0], env), cmds[1..], env)
  }

  /**
   * Any admissible sequence of calls from a coherent state keeps the shadows
   * in agreement with the configuration, and never moves the frame counter.
   */
  lemma {:induction false} CommandsKeepCoherent(s: Animation, cmds: seq<Command>, env: C.Env)
    requires Runs(s, cmds, env) && Coherent(s)
    ensures Coherent(ApplyAll(s, cmds, env)) && ApplyAll(s, cmds, env).time == s.time
    decreases |cmds|
  {
    if |cmds| > 0 {
      CommandsKeepCoherent(Apply(s, cmds[0], env), cmds[1..], env);
    }
  }

  /**
   * The lines `drawConnections()` strokes in the first running frame after
   * the fade-in restarts (by every call that ends in `reinitialize()`, as
   * `Apply` ensures). `animate()` steps the fade-in first, so that frame draws
   * at fade 0.02: exactly the close pairs of the advanced particles when
   * connections are on, none otherwise, each at an alpha of at most 2% of the
   * configured opacity and positive when that opacity is.
   */
  method FirstFrameLines(r: Animation, advance: Particle -> Particle, dist: Conn.Metric)
    returns (lines: seq<Conn.Line>)
    requires r.fade == 0.0 && !r.shadow.paused && Conn.NonNegative(dist)
    requires r.config.connections.opacity >= 0.0
    ensures Tick(r, advance).fade == 0.02
    ensures var t := Tick(r, advance);
      && Conn.AllJoin(t.particles, lines, t.config.connections, 0.02, dist)
      && Conn.InLoopOrder(lines)
      && (!t.config.connections.enabled ==> lines == [])
      && (t.config.connections.enabled ==>
            forall a: nat, b: nat :: Conn.Close(t.particles, a, b, t.config.connections, dist) ==>
              Conn.Line(a, b, Conn.Alpha(dist(t.particles[a], t.particles[b]), t.config.connections, 0.02)) in lines)
    ensures forall m :: 0 <= m < |lines| ==> Faint(dist(Tick(r, advance).particles[lines[m].i],
                                                       Tick(r, advance).particles[lines[m].j]), r.config.connections)
    ensures forall m :: 0 <= m < |lines| ==> lines[m].alpha <= 0.02 * r.config.connections.opacity
  {
    var t := Tick(r, advance);
    lines := Conn.SelectConnections(t.particles, t.config.connections, t.fade, dist);
    forall m | 0 <= m < |lines|
      ensures Faint(dist(t.particles[lines[m].i], t.particles[lines[m].j]), r.config.connections)
    {
      Conn.AlphaBounds(dist(t.particles[lines[m].i], t.particles[lines[m].j]), t.config.connections, 0.02);
    }
  }

  /** A line of length d is drawn at fade 0.02: positive for a positive opacity, and at most 2% of it. */
  predicate Faint(d: real, style: ConnectionStyle)
    requires style.maxDistance != 0.0
  {
    && 0.0 <= Conn.Alpha(d, style, 0.02) <= 0.02 * style.opacity
    && (style.opacity > 0.0 ==> Conn.Alpha(d, style, 0.02) > 0.0)
  }
}

=== FILE: config.dfy ===
/**
 * The process-wide configuration record of the particle ring (the
 * `ParticleRingConfig` object) and its default contents.
 */
module RingConfig {
  import opened Options
  import opened JsNumber

  /**
   * The count policy named by `particleCount.mode`. Any other string, and a
   * missing key, is `Other`; the layout treats it like `Density` (the
   * `default:` arm of the mode switch).
   */
  datatype CountMode = Density | Absolute | PerRing | Other

  function ModeOf(name: string): CountMode {
    if name == "density" then Density
    else if name == "absolute" then Absolute
    else if name == "perRing" then PerRing
    else Other
  }

  /** `particleCount`: the per-ring count policy and the overall limits. */
  datatype CountPolicy = CountPolicy(
    mode: CountMode,
    baseCount: Num,
    increment: Num,
    multiplier: Num,
    perRingCounts: Option<seq<Num>>,
    maxParticles: Num,
    minParticles: Num)

  /** `scaling`: ring geometry as ratios of the smaller canvas side. */
  datatype Scaling = Scaling(
    enabled: bool,
    baseSize: real,
    innerRadiusRatio: real,
    ringWidthRatio: real,
    ringGapRatios: seq<real>)

  datatype SizeRange = SizeRange(min: real, max: real)

  /** `connections`: the proximity lines drawn between particles. */
  datatype ConnectionStyle = ConnectionStyle(
    enabled: bool,
    maxDistance: real,
    opacity: real,
    lineWidth: real,
    strokeStyle: string)

  datatype TextStyle = TextStyle(
    line1: string,
    line2: string,
    visible: bool,
    fontSize1: real,
    fontSize2: real)

  datatype CanvasSettings = CanvasSettings(width: real, height: real, autoResize: bool)

  datatype Config = Config(
    rotationSpeed: real,
    currentPattern: int,
    paused: bool,
    ringWidth: real,
    innerRadius: real,
    particleDensity: real,
    ringGaps: seq<real>,
    particleCount: CountPolicy,
    scaling: Scaling,
    particleSize: SizeRange,
    colors: seq<string>,
    connections: ConnectionStyle,
    text: TextStyle,
    canvas: CanvasSettings)

  const DefaultColors: seq<string> :=
    ["#ffffff", "#f0f8ff", "#e6f3ff", "#ddeeff", "#ccddff", "#bbccff", "#aabbff", "#99aaff"]

  /** The configuration the program starts with. */
  const DefaultConfig: Config := Config(
    rotationSpeed := 0.002,
    currentPattern := 0,
    paused := false,
    ringWidth := 15.0,
    innerRadius := 180.0,
    particleDensity := 2.0,
    ringGaps := [0.0, 12.0, 22.0, 35.0, 47.0, 62.0, 75.0, 90.0, 105.0],
    particleCount := CountPolicy(
      mode := Density,
      baseCount := Finite(30.0),
      increment := Finite(7.0),
      multiplier := Finite(2.0),
      perRingCounts := None,
      maxParticles := Finite(2000.0),
      minParticles := Finite(50.0)),
    scaling := Scaling(
      enabled := true,
      baseSize := 800.0,
      innerRadiusRatio := 0.225,
      ringWidthRatio := 0.01875,
      ringGapRatios := [0.0, 0.015, 0.0275, 0.04375, 0.05875, 0.0775, 0.09375, 0.1125, 0.13125]),
    particleSize := SizeRange(0.6, 3.0),
    colors := DefaultColors,
    connections := ConnectionStyle(
      enabled := true,
      maxDistance := 40.0,
      opacity := 0.08,
      lineWidth := 0.2,
      strokeStyle := "rgba(255, 255, 255, 0.05)"),
    text := TextStyle(line1 := "", line2 := "", visible := false, fontSize1 := 0.08, fontSize2 := 0.05),
    canvas := CanvasSettings(width := 0.0, height := 0.0, autoResize := true))

  /**
   * The scaled defaults are the absolute defaults divided by the base size:
   * at `baseSize` (800), each ratio gives back the matching absolute setting.
   */
  lemma DefaultsAgreeAtBaseSize()
    ensures |DefaultConfig.scaling.ringGapRatios| == |DefaultConfig.ringGaps| == 9
    ensures DefaultConfig.scaling.innerRadiusRatio * DefaultConfig.scaling.baseSize == DefaultConfig.innerRadius
    ensures DefaultConfig.scaling.ringWidthRatio * DefaultConfig.scaling.baseSize == DefaultConfig.ringWidth
    ensures forall i :: 0 <= i < |DefaultConfig.ringGaps| ==>
      DefaultConfig.scaling.ringGapRatios[i] * DefaultConfig.scaling.baseSize == DefaultConfig.ringGaps[i]
    ensures DefaultConfig.particleCount.minParticles.v <= DefaultConfig.particleCount.maxParticles.v
  {}
}

=== FILE: connections.dfy ===
/**
 * The connection lines `drawConnections()` strokes: every unordered pair of
 * particles closer than `connections.maxDistance`, with an opacity that falls
 * linearly with distance and is scaled by the fade-in progress.
 */
module Connections {
  import opened RingConfig
  import opened Particles

  /** One stroked segment between `particles[i]` and `particles[j]` at `globalAlpha == alpha`. */
  datatype Line = Line(i: nat, j: nat, alpha: real)

  /** The distance the canvas code measures between two particles (`Math.sqrt(dx² + dy²)`). */
  type Metric = (Particle, Particle) -> real

  ghost predicate NonNegative(dist: Metric)
  {
    forall p, q :: dist(p, q) >= 0.0
  }

  /** The alpha of a line of length d: `(1 - d / maxDistance) · opacity · fade`. */
  function Alpha(d: real, style: ConnectionStyle, fade: real): real
    requires style.maxDistance != 0.0
  {
    (1.0 - d / style.maxDistance) * style.opacity * fade
  }

  /** Strict lexicographic order on index pairs: the order of the nested loops. */
  predicate Before(a: Line, b: Line)
  {
    a.i < b.i || (a.i == b.i && a.j < b.j)
  }

  /** `l` is a line the nested loops stroke for `ps`. */
  predicate Joins(ps: seq<Particle>, l: Line, style: ConnectionStyle, fade: real, dist: Metric)
  {
    && l.i < l.j < |ps|
    && 0.0 <= dist(ps[l.i], ps[l.j]) < style.maxDistance
    && l.alpha == Alpha(dist(ps[l.i], ps[l.j]), style, fade)
  }

  /** Particles a < b are close enough to be joined. */
  predicate Close(ps: seq<Particle>, a: nat, b: nat, style: ConnectionStyle, dist: Metric)
  {
    a < b < |ps| && dist(ps[a], ps[b]) < style.maxDistance
  }

  /** Each line of `lines` joins a close pair with the linear alpha. */
  predicate AllJoin(ps: seq<Particle>, lines: seq<Line>, style: ConnectionStyle, fade: real, dist: Metric)
  {
    forall m :: 0 <= m < |lines| ==> Joins(ps, lines[m], style, fade, dist)
  }

  /** Strictly increasing in loop order, so no pair appears twice. */
  predicate InLoopOrder(lines: seq<Line>)
  {
    forall m, m' :: 0 <= m < m' < |lines| ==> Before(lines[m], lines[m'])
  }

  /**
   * The lines of row i of the nested loops: the pairs (i, j) with
   * i < j < |ps| that are close, in increasing j.
   */
  method ConnectRow(ps: seq<Particle>, i: nat, style: ConnectionStyle, fade: real, dist: Metric)
    returns (row: seq<Line>)
    requires NonNegative(dist)
    ensures AllJoin(ps, row, style, fade, dist) && InLoopOrder(row)
    ensures forall m :: 0 <= m < |row| ==> row[m].i == i
    ensures forall b: nat :: Close(ps, i, b, style, dist) ==> Line(i, b, Alpha(dist(ps[i], ps[b]), style, fade)) in row
  {
    row := [];
    var j := i + 1;
    while j < |ps|
      invariant i + 1 <= j
      invariant AllJoin(ps, row, style, fade, dist) && InLoopOrder(row)
      invariant forall m :: 0 <= m < |row| ==> row[m].i == i && row[m].j < j
      invariant forall b: nat :: b < j && Close(ps, i, b, style, dist) ==>
        Line(i, b, Alpha(dist(ps[i], ps[b]), style, fade)) in row
    {
      var d := dist(ps[i], ps[j]);
      if d < style.maxDistance {
        row := row + [Line(i, j, Alpha(d, style, fade))];
      }
      j := j + 1;
    }
  }

  /**
   * The lines stroked for one frame. Nothing when connections are disabled;
   * otherwise exactly the pairs i < j closer than `maxDistance`, each once,
   * in loop order, with the linear alpha.
   */
  method SelectConnections(ps: seq<Particle>, style: ConnectionStyle, fade: real, dist: Metric)
    returns (lines: seq<Line>)
    requires NonNegative(dist)
    ensures !style.enabled ==> lines == []
    ensures AllJoin(ps, lines, style, fade, dist)
    ensures style.enabled ==>
      forall a: nat, b: nat :: Close(ps, a, b, style, dist) ==> Line(a, b, Alpha(dist(ps[a], ps[b]), style, fade)) in lines
    ensures InLoopOrder(lines)
  {
    lines := [];
    if !style.enabled {
      return;
    }
    var i := 0;
    while i < |ps|
      invariant 0 <= i <= |ps|
      invariant AllJoin(ps, lines, style, fade, dist) && InLoopOrder(lines)
      invariant forall m :: 0 <= m < |lines| ==> lines[m].i < i
      invariant forall a: nat, b: nat :: a < i && Close(ps, a, b, style, dist) ==>
        Line(a, b, Alpha(dist(ps[a], ps[b]), style, fade)) in lines
    {
      var row := ConnectRow(ps, i, style, fade, dist);
      assert forall m :: 0 <= m < |row| ==> (lines + row)[|lines| + m] == row[m];
      lines := lines + row;
      i := i + 1;
    }
  }

  /**
   * A line's alpha lies in `[0, opacity · fade]` for non-negative opacity and
   * fade, and is positive when both are.
   */
  lemma AlphaBounds(d: real, style: ConnectionStyle, fade: real)
    requires 0.0 <= d < style.maxDistance
    requires style.opacity >= 0.0 && fade >= 0.0
    ensures 0.0 <= Alpha(d, style, fade) <= style.opacity * fade
    ensures style.opacity > 0.0 && fade > 0.0 ==> Alpha(d, style, fade) > 0.0
  {
    var s := 1.0 - d / style.maxDistance;
    var w := style.opacity * fade;
    assert 0.0 <= d / style.maxDistance < 1.0;
    assert 0.0 < s <= 1.0;
    assert w >= 0.0;
    calc {
      Alpha(d, style, fade);
      ==
      (s * style.opacity) * fade;
      ==
      s * w;
    }
    assert s * w <= w by {
      assert (1.0 - s) * w >= 0.0;
    }
  }

  /** Nearer pairs are drawn at least as opaque as farther ones. */
  lemma AlphaFallsWithDistance(d1: real, d2: real, style: ConnectionStyle, fade: real)
    requires 0.0 <= d1 <= d2 < style.maxDistance
    requires style.opacity >= 0.0 && fade >= 0.0
    ensures Alpha(d1, style, fade) >= Alpha(d2, style, fade)
  {}
}

=== FILE: controls.dfy ===
/**
 * The operations of the public control object and the legacy controls
 * that have more to them than storing one value: pause, pattern selection,
 * the cycle functions, the text switches, the absolute particle count, the
 * canvas size and the shallow configuration merge.
 */
module Controls {
  import opened Options
  import opened JsNumber
  import opened RingConfig
  import opened Particles
  import opened Layout
  import opened LayoutFacts
  import opened Engine

  /** What the host supplies: the random draws of the next layout and the window size. */
  datatype Env = Env(draws: DrawSource, windowWidth: real, windowHeight: real)

  // ---- pause ----

  /** `togglePause()`: flips the configured flag and copies it to the shadow. */
  function TogglePause(s: Animation): (r: Animation)
    ensures r.config.paused == !s.config.paused && r.shadow.paused == r.config.paused
    ensures r.config == s.config.(paused := r.config.paused)
    ensures r.shadow == s.shadow.(paused := r.shadow.paused)
    ensures r.particles == s.particles && r.fade == s.fade && r.time == s.time && r.surface == s.surface
    ensures Coherent(s) ==> Coherent(r)
  {
    var p := !s.config.paused;
    s.(config := s.config.(paused := p), shadow := s.shadow.(paused := p))
  }

  /** Toggling twice restores the state, once the shadow agrees with the configuration. */
  lemma TogglePauseTwice(s: Animation)
    requires Coherent(s)
    ensures TogglePause(TogglePause(s)) == s
  {}

  /** `pause()` and `resume()`. */
  function SetPaused(s: Animation, p: bool): (r: Animation)
    ensures r.config.paused == p && r.shadow.paused == p
    ensures r.config == s.config.(paused := p) && r.shadow == s.shadow.(paused := p)
    ensures r.particles == s.particles && r.fade == s.fade && r.time == s.time && r.surface == s.surface
    ensures Coherent(s) ==> Coherent(r)
  {
    s.(config := s.config.(paused := p), shadow := s.shadow.(paused := p))
  }

  // ---- patterns ----

  /** The pattern indices `Particle.update()` has a case for. */
  predicate Handled(pattern: int) {
    0 <= pattern < 4
  }

  /**
   * `setPattern(p)`: stores `p % 4` with JavaScript's truncating remainder, in
   * both the configuration and the shadow. The stored index differs from p by
   * a multiple of 4 and lies in (-4, 4), with the sign of p.
   */
  function SetPattern(s: Animation, p: int): (r: Animation)
    ensures r.config.currentPattern == r.shadow.currentPattern
    ensures -4 < r.config.currentPattern < 4
    ensures (p - r.config.currentPattern) % 4 == 0
    ensures p >= 0 ==> r.config.currentPattern >= 0
    ensures p <= 0 ==> r.config.currentPattern <= 0
    ensures r.config == s.config.(currentPattern := r.config.currentPattern)
    ensures r.shadow == s.shadow.(currentPattern := r.shadow.currentPattern)
    ensures r.particles == s.particles && r.fade == s.fade && r.time == s.time && r.surface == s.surface
    ensures Coherent(s) ==> Coherent(r)
  {
    var q := Rem(p, 4);
    s.(config := s.config.(currentPattern := q), shadow := s.shadow.(currentPattern := q))
  }

  /**
   * The stored index has an update case exactly when p is non-negative or a
   * multiple of 4: any other negative p leaves a negative index that no
   * `switch` arm of `Particle.update()` matches.
   */
  lemma PatternHandledIff(s: Animation, p: int)
    ensures Handled(SetPattern(s, p).config.currentPattern) <==> p >= 0 || p % 4 == 0
  {}

  /**
   * Legacy `changePattern()`: `setPattern((currentPattern + 1) % 4)`, read
   * from the configuration. Whatever index is stored (`updateConfig` can
   * store any), the new one lies in (-4, 4) and differs from the old index
   * plus 1 by a multiple of 4; from -1 upwards it is handled.
   */
  function ChangePattern(s: Animation): (r: Animation)
    ensures Handled(s.config.currentPattern) ==>
      r.config.currentPattern == if s.config.currentPattern == 3 then 0 else s.config.currentPattern + 1
    ensures -4 < s.config.currentPattern < 0 ==> r.config.currentPattern == s.config.currentPattern + 1
    ensures -4 < r.config.currentPattern < 4 && r.config.currentPattern == r.shadow.currentPattern
    ensures (s.config.currentPattern + 1 - r.config.currentPattern) % 4 == 0
    ensures s.config.currentPattern >= -1 ==> Handled(r.config.currentPattern)
    ensures s.config.currentPattern < -1 ==> r.config.currentPattern <= 0
    ensures r.config == s.config.(currentPattern := r.config.currentPattern)
    ensures r.shadow == s.shadow.(currentPattern := r.shadow.currentPattern)
    ensures r.particles == s.particles && r.fade == s.fade && r.time == s.time && r.surface == s.surface
    ensures Coherent(s) ==> Coherent(r)
  {
    SetPattern(s, Rem(s.config.currentPattern + 1, 4))
  }

  /** Four pattern changes from a handled index come back to it: 0 → 1 → 2 → 3 → 0. */
  lemma ChangePatternCycles(s: Animation)
    requires Handled(s.config.currentPattern)
    ensures ChangePattern(ChangePattern(ChangePattern(ChangePattern(s)))).config.currentPattern
      == s.config.currentPattern
  {}

  /** From a negative index the changes climb to 0 and then cycle. */
  lemma ChangePatternRecovers(s: Animation)
    requires -4 < s.config.currentPattern < 0
    ensures Handled(ChangePattern(ChangePattern(ChangePattern(s))).config.currentPattern)
  {}

  // ---- speed, ring width, density cycles ----

  /** `setRotationSpeed(v)`. */
  function SetRotationSpeed(s: Animation, v: real): (r: Animation)
    ensures r.config.rotationSpeed == v && r.shadow.rotationSpeed == v
    ensures r.config == s.config.(rotationSpeed := v) && r.shadow == s.shadow.(rotationSpeed := v)
    ensures r.particles == s.particles && r.fade == s.fade && r.time == s.time && r.surface == s.surface
    ensures Coherent(s) ==> Coherent(r)
  {
    s.(config := s.config.(rotationSpeed := v), shadow := s.shadow.(rotationSpeed := v))
  }

  /** The speed `changeSpeed()` moves to from v: 0.002 → 0.005 → 0.001 → 0.002, anything else → 0.002. */
  function NextSpeed(v: real): real {
    if v == 0.002 then 0.005 else if v == 0.005 then 0.001 else 0.002
  }

  /** Legacy `changeSpeed()`: cycles the speed, reading the shadow copy. */
  function ChangeSpeed(s: Animation): (r: Animation)
    ensures r.config.rotationSpeed == NextSpeed(s.shadow.rotationSpeed) == r.shadow.rotationSpeed
    ensures r.config == s.config.(rotationSpeed := r.config.rotationSpeed)
    ensures r.shadow == s.shadow.(rotationSpeed := r.shadow.rotationSpeed)
    ensures r.particles == s.particles && r.fade == s.fade && r.time == s.time && r.surface == s.surface
    ensures Coherent(s) ==> Coherent(r)
  {
    SetRotationSpeed(s, NextSpeed(s.shadow.rotationSpeed))
  }

  /** Three changes return to any of the three cycle speeds; one change leaves any other speed at 0.002. */
  lemma ChangeSpeedCycles(s: Animation)
    ensures s.shadow.rotationSpeed in {0.002, 0.005, 0.001} ==>
      ChangeSpeed(ChangeSpeed(ChangeSpeed(s))).shadow.rotationSpeed == s.shadow.rotationSpeed
    ensures s.shadow.rotationSpeed !in {0.002, 0.005, 0.001} ==>
      ChangeSpeed(s).shadow.rotationSpeed == 0.002
    ensures ChangeSpeed(s).shadow.rotationSpeed in {0.002, 0.005, 0.001}
  {}

  /** `setRingWidth(w)`: stored in both copies, then `reinitialize()`. */
  function SetRingWidth(s: Animation, w: real, env: Env): (r: Animation)
    ensures r.config == s.config.(ringWidth := w) && r.surface == s.surface
    ensures !s.config.scaling.enabled ==> r.shadow == s.shadow.(ringWidth := w)
    ensures s.config.scaling.enabled ==>
      r.shadow.ringWidth == CanvasSize(s.surface.width, s.surface.height) * s.config.scaling.ringWidthRatio
    ensures r.fade == 0.0 && r.particles == LayoutOf(r, env.draws)
    ensures Coherent(s) ==> Coherent(r)
  {
    Reinitialize(s.(config := s.config.(ringWidth := w), shadow := s.shadow.(ringWidth := w)), env.draws)
  }

  /** The width `adjustRingWidth()` moves to: 30 → 20 → 40 → 30, anything else → 30. */
  function NextRingWidth(w: real): real {
    if w == 30.0 then 20.0 else if w == 20.0 then 40.0 else 30.0
  }

  /**
   * Legacy `adjustRingWidth()`, reading the shadow. With scaling on the
   * following `init()` overwrites the shadow with the scaled width, so unless
   * that width happens to be 20 or 30 every call stores 30 again.
   */
  function AdjustRingWidth(s: Animation, env: Env): (r: Animation)
    ensures r.config.ringWidth == NextRingWidth(s.shadow.ringWidth)
    ensures r.config == s.config.(ringWidth := r.config.ringWidth) && r.surface == s.surface
    ensures !s.config.scaling.enabled ==> r.shadow.ringWidth == r.config.ringWidth
    ensures s.config.scaling.enabled ==>
      r.shadow.ringWidth == CanvasSize(s.surface.width, s.surface.height) * s.config.scaling.ringWidthRatio
    ensures r.fade == 0.0 && r.particles == LayoutOf(r, env.draws)
    ensures Coherent(s) ==> Coherent(r)
  {
    SetRingWidth(s, NextRingWidth(s.shadow.ringWidth), env)
  }

  /** Under scaling the width cycle is stuck: the second call stores 30 whenever the scaled width is not 20 or 30. */
  lemma AdjustRingWidthStuckWhenScaled(s: Animation, env: Env)
    requires s.config.scaling.enabled
    requires var w := CanvasSize(s.surface.width, s.surface.height) * s.config.scaling.ringWidthRatio;
      w != 20.0 && w != 30.0
    ensures AdjustRingWidth(AdjustRingWidth(s, env), env).config.ringWidth == 30.0
  {}

  /** `setInnerRadius(x)`: stored in both copies, then `reinitialize()`. */
  function SetInnerRadius(s: Animation, x: real, env: Env): (r: Animation)
    ensures r.config == s.config.(innerRadius := x) && r.surface == s.surface && r.time == s.time
    ensures !s.config.scaling.enabled ==> r.shadow == s.shadow.(innerRadius := x)
    ensures r.fade == 0.0 && r.particles == LayoutOf(r, env.draws)
    ensures Coherent(s) ==> Coherent(r)
  {
    Reinitialize(s.(config := s.config.(innerRadius := x), shadow := s.shadow.(innerRadius := x)), env.draws)
  }

  /** `setParticleDensity(d)`: the density and the count multiplier both become d. */
  function SetParticleDensity(s: Animation, d: real, env: Env): (r: Animation)
    ensures r.config.particleDensity == d && r.shadow.particleDensity == d
    ensures r.config.particleCount == s.config.particleCount.(multiplier := Finite(d))
    ensures r.config == s.config.(particleDensity := d, particleCount := r.config.particleCount)
    ensures r.surface == s.surface && r.time == s.time
    ensures r.fade == 0.0 && r.particles == LayoutOf(r, env.draws)
    ensures Coherent(s) ==> Coherent(r)
  {
    var cfg := s.config.(particleDensity := d, particleCount := s.config.particleCount.(multiplier := Finite(d)));
    Reinitialize(s.(config := cfg, shadow := s.shadow.(particleDensity := d)), env.draws)
  }

  /** The density `adjustParticleCount()` moves to: 3.0 → 1.5 → 5.0 → 3.0, anything else → 3.0. */
  function NextDensity(d: real): real {
    if d == 3.0 then 1.5 else if d == 1.5 then 5.0 else 3.0
  }

  /** Legacy `adjustParticleCount()`, reading the shadow density. */
  function AdjustParticleCount(s: Animation, env: Env): (r: Animation)
    ensures r.config.particleDensity == NextDensity(s.shadow.particleDensity) == r.shadow.particleDensity
    ensures r.config.particleCount.multiplier == Finite(r.config.particleDensity)
    ensures r.config == s.config.(particleDensity := r.config.particleDensity,
                                  particleCount := s.config.particleCount.(multiplier := Finite(r.config.particleDensity)))
    ensures r.surface == s.surface && r.time == s.time
    ensures r.fade == 0.0 && r.particles == LayoutOf(r, env.draws)
    ensures Coherent(s) ==> Coherent(r)
  {
    SetParticleDensity(s, NextDensity(s.shadow.particleDensity), env)
  }

  /** Three adjustments return to any of the three cycle densities; one leaves any other at 3.0. */
  lemma AdjustParticleCountCycles(s: Animation, env: Env)
    ensures s.shadow.particleDensity in {3.0, 1.5, 5.0} ==>
      AdjustParticleCount(AdjustParticleCount(AdjustParticleCount(s, env), env), env).config.particleDensity
        == s.shadow.particleDensity
    ensures s.shadow.particleDensity !in {3.0, 1.5, 5.0} ==> AdjustParticleCount(s, env).config.particleDensity == 3.0
  {}

  // ---- text ----

  /** `showText()` and `hideText()`. */
  function SetTextVisible(s: Animation, v: bool): (r: Animation)
    ensures r.config.text.visible == v && r.shadow.showText == v
    ensures r.config == s.config.(text := s.config.text.(visible := v))
    ensures r.shadow == s.shadow.(showText := v)
    ensures r.particles == s.particles && r.fade == s.fade && r.time == s.time && r.surface == s.surface
    ensures Coherent(s) ==> Coherent(r)
  {
    s.(config := s.config.(text := s.config.text.(visible := v)), shadow := s.shadow.(showText := v))
  }

  /**
   * `setText(line1, line2)` (and legacy `updateCenterText()`): both lines are
   * stored; a non-empty line switches the text on, but empty lines never
   * switch it off.
   */
  function SetText(s: Animation, line1: string, line2: string): (r: Animation)
    ensures r.config.text.line1 == line1 && r.config.text.line2 == line2
    ensures r.shadow.text1 == line1 && r.shadow.text2 == line2
    ensures r.config.text.visible == (s.config.text.visible || line1 != "" || line2 != "")
    ensures r.shadow.showText == (s.shadow.showText || line1 != "" || line2 != "")
    ensures r.config.text.fontSize1 == s.config.text.fontSize1 && r.config.text.fontSize2 == s.config.text.fontSize2
    ensures r.config == s.config.(text := r.config.text)
    ensures r.particles == s.particles && r.fade == s.fade && r.time == s.time && r.surface == s.surface
    ensures Coherent(s) ==> Coherent(r)
  {
    var t := s.(config := s.config.(text := s.config.text.(line1 := line1, line2 := line2)),
                shadow := s.shadow.(text1 := line1, text2 := line2));
    if line1 != "" || line2 != "" then SetTextVisible(t, true) else t
  }

  /** Legacy `toggleTextVisibility()`: hides the text when the shadow says it is shown, shows it otherwise. */
  function ToggleTextVisibility(s: Animation): (r: Animation)
    ensures r.shadow.showText == !s.shadow.showText == r.config.text.visible
    ensures r.config == s.config.(text := s.config.text.(visible := r.config.text.visible))
    ensures r.shadow == s.shadow.(showText := r.shadow.showText)
    ensures r.particles == s.particles && r.fade == s.fade && r.time == s.time && r.surface == s.surface
    ensures Coherent(s) ==> Coherent(r)
  {
    if s.shadow.showText then SetTextVisible(s, false) else SetTextVisible(s, true)
  }

  lemma ToggleTextTwice(s: Animation)
    requires Coherent(s)
    ensures ToggleTextVisibility(ToggleTextVisibility(s)) == s
  {}

  // ---- absolute particle count ----

  /** For a positive divisor, `floor(t / n) · n <= t < (floor(t / n) + 1) · n`. */
  lemma FloorDivision(t: real, n: real)
    ensures n > 0.0 ==> var f := (t / n).Floor as real; f * n <= t < (f + 1.0) * n
  {
    if n <= 0.0 { return; }
    var q := t / n;
    var f := q.Floor as real;
    assert f <= q < f + 1.0;
    assert q * n == t;
    assert f * n <= q * n by {
      assert (q - f) * n >= 0.0;
      assert (q - f) * n == q * n - f * n;
    }
    assert q * n < (f + 1.0) * n by {
      assert (f + 1.0 - q) * n > 0.0;
      assert (f + 1.0 - q) * n == (f + 1.0) * n - q * n;
    }
    calc {
      t;
      ==
      q * n;
      <
      (f + 1.0) * n;
    }
  }

  /** An `absolute` policy with increment 0 requests `floor(baseCount)` of every ring. */
  lemma FlatRequest(pol: CountPolicy, i: nat)
    requires pol.mode == Absolute && pol.baseCount.Finite? && IsWhole(pol.baseCount.v)
    requires pol.increment == Finite(0.0)
    ensures RequestedCount(pol, i) == pol.baseCount
  {}

  lemma FlatRequests(pol: CountPolicy)
    requires pol.mode == Absolute && pol.baseCount.Finite? && IsWhole(pol.baseCount.v)
    requires pol.increment == Finite(0.0)
    ensures forall i: nat :: RequestedCount(pol, i) == pol.baseCount
  {
    forall i: nat ensures RequestedCount(pol, i) == pol.baseCount {
      FlatRequest(pol, i);
    }
  }

  /**
   * `setAbsoluteParticleCount(total)`: mode `absolute`, base
   * `floor(total / (ringGaps.length - 1))`, increment 0, then
   * `reinitialize()`. Every ring then requests the same count, and those
   * requests add up to at most `total` (the ring count is that of the
   * configured `ringGaps`, whatever scaling does to the geometry).
   */
  function SetAbsoluteParticleCount(s: Animation, total: real, env: Env): (r: Animation)
    requires |s.config.ringGaps| != 1
    ensures r.config.particleCount == EvenPolicy(s.config.particleCount, |s.config.ringGaps| - 1, total)
    ensures r.config == s.config.(particleCount := r.config.particleCount)
    ensures r.fade == 0.0 && r.particles == LayoutOf(r, env.draws)
    ensures Coherent(s) ==> Coherent(r)
  {
    Reinitialize(s.(config := s.config.(particleCount := EvenPolicy(s.config.particleCount, |s.config.ringGaps| - 1, total))),
                 env.draws)
  }

  /**
   * The policy `setAbsoluteParticleCount(total)` stores for a ring count n:
   * mode `absolute`, a whole base of `floor(total / n)` and increment 0, so
   * every ring requests the same count and the n requests add up to at most
   * `total`. The other keys are kept.
   */
  function EvenPolicy(pol: CountPolicy, n: int, total: real): (p: CountPolicy)
    requires n != 0
    ensures p.mode == Absolute && p.baseCount.Finite? && IsWhole(p.baseCount.v) && p.increment == Finite(0.0)
    ensures p == pol.(mode := Absolute, baseCount := p.baseCount, increment := Finite(0.0))
    ensures forall i: nat :: RequestedCount(p, i) == p.baseCount
    ensures n > 0 ==> p.baseCount.v * n as real <= total < (p.baseCount.v + 1.0) * n as real
  {
    var avg := (total / n as real).Floor as real;
    FloorDivision(total, n as real);
    var p := pol.(mode := Absolute, baseCount := Finite(avg), increment := Finite(0.0));
    FlatRequests(p);
    p
  }

  // ---- canvas ----

  /**
   * The module-level `setCanvasSize(w, h)`: both sides when both are truthy,
   * otherwise 90% of the window.
   */
  function SurfaceFor(w: real, h: real, env: Env): (z: Size)
    ensures w != 0.0 && h != 0.0 ==> z == Size(w, h)
    ensures w == 0.0 || h == 0.0 ==> z == Size(env.windowWidth * 0.9, env.windowHeight * 0.9)
  {
    if w != 0.0 && h != 0.0 then Size(w, h) else Size(env.windowWidth * 0.9, env.windowHeight * 0.9)
  }

  /** Sets the surface and its record in the configuration to the same size. */
  function Resurface(s: Animation, w: real, h: real, env: Env): (r: Animation)
    ensures r.surface == SurfaceFor(w, h, env)
    ensures r.config.canvas.width == r.surface.width && r.config.canvas.height == r.surface.height
    ensures r.config == s.config.(canvas := s.config.canvas.(width := r.surface.width, height := r.surface.height))
    ensures r.shadow == s.shadow && r.particles == s.particles && r.fade == s.fade && r.time == s.time
  {
    var z := SurfaceFor(w, h, env);
    s.(surface := z, config := s.config.(canvas := s.config.canvas.(width := z.width, height := z.height)))
  }

  /**
   * Once the window has a size, the size a resize records is a fixed point:
   * setting the canvas to its recorded width and height changes nothing.
   */
  lemma ResurfaceSettles(s: Animation, w: real, h: real, env: Env)
    requires env.windowWidth != 0.0 && env.windowHeight != 0.0
    ensures var r := Resurface(s, w, h, env);
      Resurface(r, r.config.canvas.width, r.config.canvas.height, env) == r
  {}

  /** The API `setCanvasSize(w, h)`: resize, then `reinitialize()`. */
  function SetCanvasSize(s: Animation, w: real, h: real, env: Env): (r: Animation)
    ensures r.surface == SurfaceFor(w, h, env)
    ensures r.config.canvas == s.config.canvas.(width := r.surface.width, height := r.surface.height)
    ensures r.config == s.config.(canvas := r.config.canvas)
    ensures r.fade == 0.0 && r.particles == LayoutOf(r, env.draws)
    ensures Coherent(s) ==> Coherent(r)
  {
    Reinitialize(Resurface(s, w, h, env), env.draws)
  }

  /**
   * The window `resize` listener: when `autoResize` is on, the surface
   * becomes 90% of the window and `init()` runs without resetting the
   * fade-in; otherwise nothing happens.
   */
  function Resize(s: Animation, env: Env): (r: Animation)
    ensures s.config.canvas.autoResize ==>
      && r.surface == SurfaceFor(env.windowWidth * 0.9, env.windowHeight * 0.9, env)
      && r.fade == s.fade && r.particles == LayoutOf(r, env.draws)
    ensures !s.config.canvas.autoResize ==> r == s
    ensures r.time == s.time
    ensures Coherent(s) ==> Coherent(r)
  {
    if s.config.canvas.autoResize then
      Init(Resurface(s, env.windowWidth * 0.9, env.windowHeight * 0.9, env), env.draws)
    else s
  }

  // ---- shallow merge ----

  /**
   * The argument of `updateConfig`: the top-level keys it carries. A nested
   * record given here arrives whole; keys it lacks read as undefined.
   */
  datatype Patch = Patch(
    rotationSpeed: Option<real>,
    currentPattern: Option<int>,
    paused: Option<bool>,
    ringWidth: Option<real>,
    innerRadius: Option<real>,
    particleDensity: Option<real>,
    ringGaps: Option<seq<real>>,
    particleCount: Option<CountPolicy>,
    scaling: Option<Scaling>,
    particleSize: Option<SizeRange>,
    colors: Option<seq<string>>,
    connections: Option<ConnectionStyle>,
    text: Option<TextStyle>,
    canvas: Option<CanvasSettings>)

  const NoChange: Patch := Patch(None, None, None, None, None, None, None, None, None, None, None, None, None, None)

  function Pick<T>(o: Option<T>, keep: T): T {
    if o.Some? then o.value else keep
  }

  /**
   * `Object.assign(config, patch)`: every top-level key the patch carries
   * replaces the configured value outright, nested records included; every
   * other key is kept.
   */
  function Merge(cfg: Config, p: Patch): (c: Config)
    ensures p.rotationSpeed.Some? ==> c.rotationSpeed == p.rotationSpeed.value
    ensures p.rotationSpeed.None? ==> c.rotationSpeed == cfg.rotationSpeed
    ensures p.currentPattern.Some? ==> c.currentPattern == p.currentPattern.value
    ensures p.currentPattern.None? ==> c.currentPattern == cfg.currentPattern
    ensures p.paused.Some? ==> c.paused == p.paused.value
    ensures p.paused.None? ==> c.paused == cfg.paused
    ensures p.ringWidth.Some? ==> c.ringWidth == p.ringWidth.value
    ensures p.ringWidth.None? ==> c.ringWidth == cfg.ringWidth
    ensures p.innerRadius.Some? ==> c.innerRadius == p.innerRadius.value
    ensures p.innerRadius.None? ==> c.innerRadius == cfg.innerRadius
    ensures p.particleDensity.Some? ==> c.particleDensity == p.particleDensity.value
    ensures p.particleDensity.None? ==> c.particleDensity == cfg.particleDensity
    ensures p.ringGaps.Some? ==> c.ringGaps == p.ringGaps.value
    ensures p.ringGaps.None? ==> c.ringGaps == cfg.ringGaps
    ensures p.particleCount.Some? ==> c.particleCount == p.particleCount.value
    ensures p.particleCount.None? ==> c.particleCount == cfg.particleCount
    ensures p.scaling.Some? ==> c.scaling == p.scaling.value
    ensures p.scaling.None? ==> c.scaling == cfg.scaling
    ensures p.particleSize.Some? ==> c.particleSize == p.particleSize.value
    ensures p.particleSize.None? ==> c.particleSize == cfg.particleSize
    ensures p.colors.Some? ==> c.colors == p.colors.value
    ensures p.colors.None? ==> c.colors == cfg.colors
    ensures p.connections.Some? ==> c.connections == p.connections.value
    ensures p.connections.None? ==> c.connections == cfg.connections
    ensures p.text.Some? ==> c.text == p.text.value
    ensures p.text.None? ==> c.text == cfg.text
    ensures p.canvas.Some? ==> c.canvas == p.canvas.value
    ensures p.canvas.None? ==> c.canvas == cfg.canvas
    ensures p == NoChange ==> c == cfg
  {
    Config(
      Pick(p.rotationSpeed, cfg.rotationSpeed),
      Pick(p.currentPattern, cfg.currentPattern),
      Pick(p.paused, cfg.paused),
      Pick(p.ringWidth, cfg.ringWidth),
      Pick(p.innerRadius, cfg.innerRadius),
      Pick(p.particleDensity, cfg.particleDensity),
      Pick(p.ringGaps, cfg.ringGaps),
      Pick(p.particleCount, cfg.particleCount),
      Pick(p.scaling, cfg.scaling),
      Pick(p.particleSize, cfg.particleSize),
      Pick(p.colors, cfg.colors),
      Pick(p.connections, cfg.connections),
      Pick(p.text, cfg.text),
      Pick(p.canvas, cfg.canvas))
  }

  /** Merging the same patch twice is merging it once. */
  lemma MergeIdempotent(cfg: Config, p: Patch)
    ensures Merge(Merge(cfg, p), p) == Merge(cfg, p)
  {}

  /** The later of two options where it is present, else the earlier. */
  function Latest<T>(later: Option<T>, earlier: Option<T>): Option<T> {
    if later.Some? then later else earlier
  }

  /** `Object.assign({}, p, q)`: one patch carrying every key of either, q's value where both do. */
  function Combine(p: Patch, q: Patch): Patch {
    Patch(
      Latest(q.rotationSpeed, p.rotationSpeed),
      Latest(q.currentPattern, p.currentPattern),
      Latest(q.paused, p.paused),
      Latest(q.ringWidth, p.ringWidth),
      Latest(q.innerRadius, p.innerRadius),
      Latest(q.particleDensity, p.particleDensity),
      Latest(q.ringGaps, p.ringGaps),
      Latest(q.particleCount, p.particleCount),
      Latest(q.scaling, p.scaling),
      Latest(q.particleSize, p.particleSize),
      Latest(q.colors, p.colors),
      Latest(q.connections, p.connections),
      Latest(q.text, p.text),
      Latest(q.canvas, p.canvas))
  }

  /**
   * Two merges in a row are one merge of the combined patch, so the later
   * patch wins over the earlier one on every key both carry (shown here for
   * `particleCount`, the key the presets send).
   */
  lemma MergeLaterWins(cfg: Config, p: Patch, q: Patch)
    ensures Merge(Merge(cfg, p), q) == Merge(cfg, Combine(p, q))
    ensures q.particleCount.Some? ==> Merge(Merge(cfg, p), q).particleCount == q.particleCount.value
  {}

  /**
   * `updateConfig(patch)`: shallow merge, `syncVariables()`, then
   * `reinitialize()`. The result is coherent whatever the state before.
   */
  function UpdateConfig(s: Animation, p: Patch, env: Env): (r: Animation)
    ensures r.config == Merge(s.config, p)
    ensures Coherent(r)
    ensures r.fade == 0.0 && r.particles == LayoutOf(r, env.draws) && r.surface == s.surface
    ensures !r.config.scaling.enabled ==> r.shadow == Sync(r.config)
  {
    var cfg := Merge(s.config, p);
    Reinitialize(s.(config := cfg, shadow := Sync(cfg)), env.draws)
  }

  /**
   * A `particleCount` fragment that lacks `minParticles` or `maxParticles`
   * (as every preset's fragment does) replaces the limits with undefined, and
   * the rebuilt layout is then empty, whatever the limits were before.
   */
  lemma FragmentWithoutLimitsEmptiesLayout(s: Animation, p: Patch, env: Env)
    requires p.particleCount.Some?
    requires p.particleCount.value.minParticles.NaN? || p.particleCount.value.maxParticles.NaN?
    ensures UpdateConfig(s, p, env).particles == []
  {
    var r := UpdateConfig(s, p, env);
    MissingLimitEmptiesLayout(r.config, r.surface.width, r.surface.height, env.draws);
  }
}

=== FILE: histogram.dfy ===
/**
 * `getParticleCountPerRing()`: an approximate per-ring census that buckets
 * particles by `floor(distance / 50)`.
 */
module Histogram {
  import opened Particles

  /** The bucket a particle is counted in. */
  function Bucket(p: Particle): int {
    (p.distance / 50.0).Floor
  }

  /** How many of `ps` fall in bucket b: the reference count. */
  function Occurrences(ps: seq<Particle>, b: int): nat {
    if |ps| == 0 then 0
    else Occurrences(ps[..|ps| - 1], b) + (if Bucket(ps[|ps| - 1]) == b then 1 else 0)
  }

  /**
   * The census object, built in `forEach` order: each particle adds one to
   * its bucket's entry, creating the entry at 1 when absent. A bucket is a
   * key exactly when some particle falls in it, and its entry is that
   * bucket's count.
   */
  function Census(ps: seq<Particle>): (h: map<int, nat>)
    ensures forall b :: b in h <==> Occurrences(ps, b) > 0
    ensures forall b :: b in h ==> h[b] == Occurrences(ps, b)
  {
    if |ps| == 0 then map[]
    else
      var h := Census(ps[..|ps| - 1]);
      var b := Bucket(ps[|ps| - 1]);
      h[b := (if b in h then h[b] else 0) + 1]
  }

  /** Some particle falls in every counted bucket, and every particle's bucket is counted. */
  lemma {:induction false} OccurrencesPositive(ps: seq<Particle>, b: int)
    ensures Occurrences(ps, b) > 0 <==> exists k :: 0 <= k < |ps| && Bucket(ps[k]) == b
  {
    if |ps| > 0 {
      var init := ps[..|ps| - 1];
      OccurrencesPositive(init, b);
      if exists k :: 0 <= k < |init| && Bucket(init[k]) == b {
        var k :| 0 <= k < |init| && Bucket(init[k]) == b;
        assert ps[k] == init[k];
      }
      if exists k :: 0 <= k < |ps| && Bucket(ps[k]) == b {
        var k :| 0 <= k < |ps| && Bucket(ps[k]) == b;
        if k < |init| {
          assert init[k] == ps[k];
        }
      }
    }
  }

  lemma Inhabited(ks: set<int>)
    requires ks != {}
    ensures exists b :: b in ks
  {
    if forall b :: b !in ks {
      assert false;
    }
  }

  /** The sum of the entries of h under the keys ks. */
  ghost function SumOver(h: map<int, nat>, ks: set<int>): nat
    requires ks <= h.Keys
  {
    if ks == {} then 0
    else
      Inhabited(ks);
      var b :| b in ks;
      h[b] + SumOver(h, ks - {b})
  }

  /** The sum of all entries of a census. */
  ghost function Total(h: map<int, nat>): nat {
    SumOver(h, h.Keys)
  }

  /** Any key can be summed first. */
  lemma {:induction false} SumOverWithout(h: map<int, nat>, ks: set<int>, b: int)
    requires ks <= h.Keys && b in ks
    ensures SumOver(h, ks) == h[b] + SumOver(h, ks - {b})
    decreases ks
  {
    var c :| c in ks && SumOver(h, ks) == h[c] + SumOver(h, ks - {c});
    if c != b {
      SumOverWithout(h, ks - {c}, b);
      SumOverWithout(h, ks - {b}, c);
      assert ks - {c} - {b} == ks - {b} - {c};
    }
  }

  /** The sum only reads the entries under ks. */
  lemma {:induction false} SumOverFrame(h: map<int, nat>, g: map<int, nat>, ks: set<int>)
    requires ks <= h.Keys && ks <= g.Keys
    requires forall k :: k in ks ==> h[k] == g[k]
    ensures SumOver(h, ks) == SumOver(g, ks)
    decreases ks
  {
    if ks != {} {
      Inhabited(ks);
      var b :| b in ks && SumOver(h, ks) == h[b] + SumOver(h, ks - {b});
      SumOverWithout(g, ks, b);
      SumOverFrame(h, g, ks - {b});
    }
  }

  /** Adding one to an entry (or creating it at 1) adds one to the total. */
  lemma Bump(h: map<int, nat>, b: int)
    ensures Total(h[b := (if b in h then h[b] else 0) + 1]) == Total(h) + 1
  {
    var h' := h[b := (if b in h then h[b] else 0) + 1];
    SumOverWithout(h', h'.Keys, b);
    SumOverFrame(h', h, h.Keys - {b});
    if b in h {
      assert h'.Keys - {b} == h.Keys - {b};
      SumOverWithout(h, h.Keys, b);
    } else {
      assert h.Keys - {b} == h.Keys;
      assert h'.Keys - {b} == h.Keys;
    }
  }

  /** The census accounts for every particle exactly once. */
  lemma {:induction false} CensusTotal(ps: seq<Particle>)
    ensures Total(Census(ps)) == |ps|
  {
    if |ps| > 0 {
      CensusTotal(ps[..|ps| - 1]);
      Bump(Census(ps[..|ps| - 1]), Bucket(ps[|ps| - 1]));
    }
  }

  /** Two lists whose particles fall pairwise in the same buckets count the same in every bucket. */
  lemma {:induction false} SameBucketsSameOccurrences(ps: seq<Particle>, qs: seq<Particle>, b: int)
    requires |ps| == |qs| && forall k :: 0 <= k < |ps| ==> Bucket(ps[k]) == Bucket(qs[k])
    ensures Occurrences(ps, b) == Occurrences(qs, b)
  {
    if |ps| > 0 {
      SameBucketsSameOccurrences(ps[..|ps| - 1], qs[..|qs| - 1], b);
    }
  }

  /** The census sees only buckets: lists that agree on them have the same census. */
  lemma SameBucketsSameCensus(ps: seq<Particle>, qs: seq<Particle>)
    requires |ps| == |qs| && forall k :: 0 <= k < |ps| ==> Bucket(ps[k]) == Bucket(qs[k])
    ensures Census(ps) == Census(qs)
  {
    forall b | true ensures Occurrences(ps, b) == Occurrences(qs, b) {
      SameBucketsSameOccurrences(ps, qs, b);
    }
  }
}

=== FILE: js_number.dfy ===
/**
 * The JavaScript number arithmetic the layout engine relies on, over exact reals.
 *
 * A number is either finite or NaN. Reading a key that a record lacks yields
 * `undefined`, and every operator the layout applies to such a value (`+`, `*`,
 * `/`, `Math.floor`, `Math.min`, `Math.max`) turns it into NaN, so a missing
 * number is represented by `NaN` too. Infinities and IEEE rounding are not
 * modelled.
 */
module JsNumber {

  datatype Num = Finite(v: real) | NaN

  function Add(a: Num, b: Num): Num {
    if a.Finite? && b.Finite? then Finite(a.v + b.v) else NaN
  }

  function Mul(a: Num, b: Num): Num {
    if a.Finite? && b.Finite? then Finite(a.v * b.v) else NaN
  }

  /** `a / d` for a non-zero finite divisor. */
  function DivBy(a: Num, d: real): Num
    requires d != 0.0
  {
    if a.Finite? then Finite(a.v / d) else NaN
  }

  /** `Math.floor`. */
  function Floor(a: Num): Num {
    if a.Finite? then Finite(a.v.Floor as real) else NaN
  }

  /** `Math.min` of two arguments: NaN as soon as either argument is NaN. */
  function Min(a: Num, b: Num): Num {
    if a.Finite? && b.Finite? then Finite(if a.v <= b.v then a.v else b.v) else NaN
  }

  /** `Math.max` of two arguments: NaN as soon as either argument is NaN. */
  function Max(a: Num, b: Num): Num {
    if a.Finite? && b.Finite? then Finite(if a.v >= b.v then a.v else b.v) else NaN
  }

  /** JavaScript truthiness of a number: neither 0 nor NaN. */
  predicate Truthy(a: Num) {
    a.Finite? && a.v != 0.0
  }

  /** The comparison `i < a` of a loop counter with a number; false against NaN. */
  predicate Below(i: int, a: Num) {
    a.Finite? && (i as real) < a.v
  }

  /** A number that has no fractional part. */
  predicate IsWhole(x: real) {
    x.Floor as real == x
  }

  /** `Math.ceil` on reals: the least integer not below `x`. */
  function Ceil(x: real): (c: int)
    ensures (c - 1) as real < x <= c as real
  {
    -((-x).Floor)
  }

  /**
   * How many times `for (let i = 0; i < a; i++)` runs its body: the counters
   * 0, 1, 2, ... that pass the test are exactly those below the result, so a
   * positive fractional bound runs `Math.ceil(a)` times and NaN runs none.
   */
  function LoopCount(a: Num): (n: nat)
    ensures forall i: int :: 0 <= i ==> (i < n <==> Below(i, a))
    ensures a.Finite? && a.v > 0.0 ==> n == Ceil(a.v)
    ensures n > 0 ==> a.Finite? && a.v > 0.0
  {
    if a.Finite? && a.v > 0.0 then Ceil(a.v) else 0
  }

  /**
   * JavaScript's `%` on integers: the remainder takes the sign of the
   * dividend (it truncates toward zero), unlike Dafny's Euclidean `%`.
   */
  function Rem(a: int, b: int): (r: int)
    requires b != 0
    ensures a >= 0 ==> 0 <= r < Abs(b)
    ensures a < 0 ==> 0 - Abs(b) < r <= 0
    ensures Abs(r) == Abs(a) % Abs(b)
  {
    if a >= 0 then a % Abs(b) else -((-a) % Abs(b))
  }

  function Abs(x: int): nat {
    if x < 0 then -x else x
  }

}

=== FILE: layout.dfy ===
/**
 * The layout engine, `init()`: ring bounds from the gap list, a particle
 * count per ring from the count policy, the clamp of that count, and the
 * placement of every particle inside its ring. `Math.random()` results are
 * supplied by a draw source indexed by ring and by position in the ring.
 */
module Layout {
  import opened Options
  import opened JsNumber
  import opened RingConfig
  import opened Particles

  /** Inner radius and gap offsets after scaling; ring i lies between gaps i and i + 1. */
  datatype Geometry = Geometry(innerRadius: real, gaps: seq<real>)

  datatype Ring = Ring(start: real, end: real, mid: real, thickness: real)

  /** The four `Math.random()` results `init()` draws for one particle, then the constructor's. */
  datatype ParticleDraws = ParticleDraws(
    angleJitter: real,
    spread: real,
    size: real,
    colorPick: real,
    ctor: ConstructorDraws)

  predicate ValidDraws(d: ParticleDraws) {
    IsDraw(d.angleJitter) && IsDraw(d.spread) && IsDraw(d.size) && IsDraw(d.colorPick)
    && ValidConstructorDraws(d.ctor)
  }

  /** The draws for particle k of ring i. */
  type DrawSource = (nat, nat) -> ParticleDraws

  ghost predicate ValidSource(draws: DrawSource) {
    forall i: nat, k: nat :: ValidDraws(draws(i, k))
  }

  /** Everything `init()` reads, resolved against the canvas size. */
  datatype Plan = Plan(
    centerX: real,
    centerY: real,
    geometry: Geometry,
    policy: CountPolicy,
    size: SizeRange,
    colors: seq<string>)

  function MinReal(a: real, b: real): real {
    if a <= b then a else b
  }

  /** `Math.min(canvas.width, canvas.height)`. */
  function CanvasSize(w: real, h: real): real {
    MinReal(w, h)
  }

  /**
   * The inner radius and gap offsets `init()` lays the rings on: with scaling
   * on, the configured ratios times the smaller canvas side; otherwise the
   * absolute `innerRadius` and `ringGaps`.
   */
  function EffectiveGeometry(cfg: Config, w: real, h: real): (g: Geometry)
    ensures cfg.scaling.enabled ==> |g.gaps| == |cfg.scaling.ringGapRatios|
    ensures !cfg.scaling.enabled ==> |g.gaps| == |cfg.ringGaps|
  {
    if cfg.scaling.enabled then
      var size := CanvasSize(w, h);
      var ratios := cfg.scaling.ringGapRatios;
      Geometry(size * cfg.scaling.innerRadiusRatio, seq(|ratios|, i requires 0 <= i < |ratios| => ratios[i] * size))
    else
      Geometry(cfg.innerRadius, cfg.ringGaps)
  }

  /** The loop bound `ringGaps.length - 1`; negative for an empty gap list. */
  function RingCount(g: Geometry): int {
    |g.gaps| - 1
  }

  /** Ring i: from inner + gaps[i] to inner + gaps[i + 1], with its midpoint and thickness. */
  function RingAt(g: Geometry, i: nat): (r: Ring)
    requires i < RingCount(g)
    ensures r.start == g.innerRadius + g.gaps[i] && r.end == g.innerRadius + g.gaps[i + 1]
    ensures r.start + r.thickness == r.end
    ensures r.mid - r.start == r.end - r.mid == r.thickness / 2.0
  {
    var start := g.innerRadius + g.gaps[i];
    var end := g.innerRadius + g.gaps[i + 1];
    Ring(start, end, (start + end) / 2.0, end - start)
  }

  /** `Math.floor(baseCount + ringIndex * increment)`. */
  function AbsoluteFormula(pol: CountPolicy, i: nat): Num {
    Floor(Add(pol.baseCount, Mul(Finite(i as real), pol.increment)))
  }

  /** The entry `perRingCounts[i]` when the array is present and the entry truthy. */
  predicate HasPerRingEntry(pol: CountPolicy, i: nat) {
    pol.perRingCounts.Some? && i < |pol.perRingCounts.value| && Truthy(pol.perRingCounts.value[i])
  }

  /**
   * The count ring i asks for before the clamp. `absolute` and the fallback of
   * `perRing` floor the linear formula; `density` and every unrecognised mode
   * floor it again after the multiplier; `perRing` takes a truthy entry as it
   * is, fractional or negative.
   */
  function RequestedCount(pol: CountPolicy, i: nat): (r: Num)
    ensures r.Finite? && !HasPerRingEntry(pol, i) ==> IsWhole(r.v)
    ensures pol.mode == PerRing && HasPerRingEntry(pol, i) ==> r == pol.perRingCounts.value[i]
    ensures pol.baseCount.NaN? && !(pol.mode == PerRing && HasPerRingEntry(pol, i)) ==> r.NaN?
  {
    match pol.mode
    case Absolute => AbsoluteFormula(pol, i)
    case PerRing =>
      if HasPerRingEntry(pol, i) then pol.perRingCounts.value[i] else AbsoluteFormula(pol, i)
    case _ => Floor(Mul(AbsoluteFormula(pol, i), pol.multiplier))
  }

  /**
   * `Math.max(minP / slots, Math.min(req, maxP / slots))`, where `slots` is the
   * number of gap entries. The result is NaN exactly when one input is; it is
   * never below `minP / slots`, never above `maxP / slots` when the limits are
   * ordered, and equals the request whenever the request already lies between
   * them.
   */
  function ClampCount(req: Num, minP: Num, maxP: Num, slots: nat): (r: Num)
    requires slots > 0
    ensures r.NaN? <==> req.NaN? || minP.NaN? || maxP.NaN?
    ensures r.Finite? ==> minP.v / slots as real <= r.v
    ensures r.Finite? && minP.v <= maxP.v ==> r.v <= maxP.v / slots as real
    ensures r.Finite? && minP.v / slots as real <= req.v <= maxP.v / slots as real ==> r == req
    ensures r.Finite? ==> r.v == req.v || r.v == minP.v / slots as real || r.v == maxP.v / slots as real
  {
    Max(DivBy(minP, slots as real), Min(req, DivBy(maxP, slots as real)))
  }

  /** The clamped count of ring i; the clamp divides by the number of gap entries, not of rings. */
  function RingQuota(plan: Plan, i: nat): (q: Num)
    requires i < RingCount(plan.geometry)
    ensures plan.policy.minParticles.NaN? || plan.policy.maxParticles.NaN? ==> q.NaN?
    ensures q.Finite? ==> plan.policy.minParticles.v / |plan.geometry.gaps| as real <= q.v
    ensures q.Finite? && plan.policy.minParticles.v <= plan.policy.maxParticles.v ==>
      q.v <= plan.policy.maxParticles.v / |plan.geometry.gaps| as real
  {
    ClampCount(RequestedCount(plan.policy, i), plan.policy.minParticles, plan.policy.maxParticles,
               |plan.geometry.gaps|)
  }

  /** The half-open interval [lo, hi). */
  predicate Within(x: real, lo: real, hi: real) {
    lo <= x < hi
  }

  /** A draw scaled by a positive length stays in [0, length). */
  lemma DrawScale(s: real, t: real)
    ensures IsDraw(s) && t > 0.0 ==> 0.0 <= s * t < t
  {}

  /**
   * `colors[Math.floor(r * colors.length)]`: a palette entry for a draw in
   * [0, 1) and a non-empty palette, undefined for an empty one.
   */
  function PickColor(colors: seq<string>, r: real): (c: Option<string>)
    ensures IsDraw(r) && |colors| > 0 ==> c.Some? && c.value in colors
    ensures |colors| == 0 ==> c.None?
  {
    DrawScale(r, |colors| as real);
    var idx := (r * |colors| as real).Floor;
    if 0 <= idx < |colors| then Some(colors[idx]) else None
  }

  /**
   * `ringDistance + (r - 0.5) * ringThickness * 0.8`: within 40% of the
   * thickness around the midpoint, and the midpoint itself for a ring of zero
   * thickness.
   */
  function SpreadDistance(ring: Ring, r: real): (dist: real)
    ensures IsDraw(r) && ring.thickness > 0.0 ==>
      Within(dist, ring.mid - 0.4 * ring.thickness, ring.mid + 0.4 * ring.thickness)
    ensures ring.thickness == 0.0 ==> dist == ring.mid
  {
    SpreadBounds(ring.mid, ring.thickness, r);
    ring.mid + (r - 0.5) * ring.thickness * 0.8
  }

  lemma SpreadBounds(mid: real, t: real, r: real)
    ensures IsDraw(r) && t > 0.0 ==> Within(mid + (r - 0.5) * t * 0.8, mid - 0.4 * t, mid + 0.4 * t)
    ensures t == 0.0 ==> mid + (r - 0.5) * t * 0.8 == mid
  {}

  /** 40% of the thickness either side of the midpoint is strictly inside a ring of positive thickness. */
  lemma SpreadInsideRing(g: Geometry, i: nat, r: real)
    requires i < RingCount(g)
    ensures var ring := RingAt(g, i);
      IsDraw(r) && ring.thickness > 0.0 ==> ring.start < SpreadDistance(ring, r) < ring.end
  {}

  /** `min + r * (max - min)`: in [min, max) for min < max, and min when they are equal. */
  function DrawnRadius(size: SizeRange, r: real): (radius: real)
    ensures IsDraw(r) && size.min < size.max ==> size.min <= radius < size.max
    ensures size.min == size.max ==> radius == size.min
  {
    var radius := size.min + r * (size.max - size.min);
    LerpBounds(size.min, size.max, r, radius);
    radius
  }

  lemma LerpBounds(lo: real, hi: real, r: real, x: real)
    requires x == lo + r * (hi - lo)
    ensures IsDraw(r) && lo < hi ==> lo <= x < hi
    ensures lo == hi ==> x == lo
  {
    var w := hi - lo;
    if IsDraw(r) && lo < hi {
      DrawScale(r, w);
      calc {
        lo + r * (hi - lo);
        ==
        lo + r * w;
        <
        lo + w;
        ==
        hi;
      }
      calc {
        lo;
        <=
        lo + r * w;
        ==
        lo + r * (hi - lo);
      }
    }
    if lo == hi {
      calc {
        lo + r * (hi - lo);
        ==
        lo + r * 0.0;
        ==
        lo;
      }
    }
  }

  /** The angle slot `(2π / count) · k` of particle k in a ring of `count`. */
  function SlotAngle(count: real, k: nat): real
    requires count > 0.0
  {
    (Pi * 2.0 / count) * k as real
  }

  /**
   * A particle seated in ring i: anchored at the canvas centre, its distance
   * within 40% of the thickness around the midpoint (so strictly inside a
   * ring of positive thickness), its radius in the configured size range and
   * its colour from the palette, with every constructor field in range.
   */
  predicate Seated(plan: Plan, i: nat, p: Particle)
    requires i < RingCount(plan.geometry)
  {
    var ring := RingAt(plan.geometry, i);
    && p.baseX == plan.centerX && p.baseY == plan.centerY
    && (ring.thickness > 0.0 ==>
          && ring.mid - 0.4 * ring.thickness <= p.distance < ring.mid + 0.4 * ring.thickness
          && ring.start < p.distance < ring.end)
    && (ring.thickness == 0.0 ==> p.distance == ring.mid)
    && (plan.size.min < plan.size.max ==> plan.size.min <= p.baseRadius < plan.size.max)
    && (plan.size.min == plan.size.max ==> p.baseRadius == plan.size.min)
    && (|plan.colors| > 0 ==> p.color.Some? && p.color.value in plan.colors)
    && (|plan.colors| == 0 ==> p.color.None?)
    && RandomFieldsInRange(p)
  }

  /** Particle k of ring i, for a ring of (possibly fractional) clamped count `count`. */
  function Place(plan: Plan, i: nat, count: real, k: nat, d: ParticleDraws): (p: Particle)
    requires i < RingCount(plan.geometry) && count > 0.0
    ensures ValidDraws(d) ==> Seated(plan, i, p)
    ensures ValidDraws(d) ==> SlotAngle(count, k) <= p.angle < SlotAngle(count, k) + 0.3
  {
    var ring := RingAt(plan.geometry, i);
    SpreadInsideRing(plan.geometry, i, d.spread);
    NewParticle(plan.centerX, plan.centerY, DrawnRadius(plan.size, d.size), PickColor(plan.colors, d.colorPick),
                SlotAngle(count, k) + d.angleJitter * 0.3, SpreadDistance(ring, d.spread), d.ctor)
  }

  /** The particles of ring i: one per passing iteration of `for (i = 0; i < count; i++)`. */
  function RingParticles(plan: Plan, i: nat, draws: DrawSource): (ps: seq<Particle>)
    requires i < RingCount(plan.geometry)
    ensures |ps| == LoopCount(RingQuota(plan, i))
    ensures forall k :: 0 <= k < |ps| ==> ps[k] == Place(plan, i, RingQuota(plan, i).v, k, draws(i, k))
  {
    var q := RingQuota(plan, i);
    seq(LoopCount(q), k requires 0 <= k < LoopCount(q) => Place(plan, i, q.v, k, draws(i, k)))
  }

  /** The number of particles rings i, i + 1, ... create. */
  function CreatedFrom(plan: Plan, i: nat): nat
    decreases |plan.geometry.gaps| - i
  {
    if i < RingCount(plan.geometry) then LoopCount(RingQuota(plan, i)) + CreatedFrom(plan, i + 1) else 0
  }

  /** The particles of rings i, i + 1, ..., in push order. */
  function LayoutFrom(plan: Plan, i: nat, draws: DrawSource): (ps: seq<Particle>)
    decreases |plan.geometry.gaps| - i
    ensures |ps| == CreatedFrom(plan, i)
  {
    if i < RingCount(plan.geometry) then RingParticles(plan, i, draws) + LayoutFrom(plan, i + 1, draws) else []
  }

  /** What `init()` reads for a canvas of w by h: centre, geometry, count policy, sizes and palette. */
  function PlanOf(cfg: Config, w: real, h: real): Plan {
    Plan(w / 2.0, h / 2.0, EffectiveGeometry(cfg, w, h), cfg.particleCount, cfg.particleSize, cfg.colors)
  }

  /** The particle list `init()` builds, from an emptied list, ring by ring. */
  function BuildLayout(cfg: Config, w: real, h: real, draws: DrawSource): (ps: seq<Particle>)
    ensures |ps| == CreatedFrom(PlanOf(cfg, w, h), 0)
  {
    LayoutFrom(PlanOf(cfg, w, h), 0, draws)
  }

}

=== FILE: layout_facts.dfy ===
/** Properties of the layout engine that relate several of its parts or several layouts. */
module LayoutFacts {
  import opened Options
  import opened JsNumber
  import opened RingConfig
  import opened Particles
  import opened Layout

  /**
   * With draws that are results of `Math.random()`, every particle of rings
   * i, i + 1, ... is seated in one of those rings.
   */
  lemma {:induction false} LayoutFromSeated(plan: Plan, i: nat, draws: DrawSource)
    requires ValidSource(draws)
    ensures forall p :: p in LayoutFrom(plan, i, draws) ==>
      exists r: nat :: i <= r < RingCount(plan.geometry) && Seated(plan, r, p)
    decreases |plan.geometry.gaps| - i
  {
    if i < RingCount(plan.geometry) {
      var here := RingParticles(plan, i, draws);
      LayoutFromSeated(plan, i + 1, draws);
      forall p | p in here
        ensures Seated(plan, i, p)
      {
        var k :| 0 <= k < |here| && here[k] == p;
        assert ValidDraws(draws(i, k));
      }
      assert LayoutFrom(plan, i, draws) == here + LayoutFrom(plan, i + 1, draws);
    }
  }

  /**
   * Every particle `init()` creates lies within 40% of the thickness around
   * the midpoint of some ring (strictly inside it when the ring has positive
   * thickness), has a radius in the configured size range, a colour from the
   * palette, and constructor fields in their ranges.
   */
  lemma LayoutSeated(cfg: Config, w: real, h: real, draws: DrawSource)
    requires ValidSource(draws)
    ensures var plan := PlanOf(cfg, w, h);
      forall p :: p in BuildLayout(cfg, w, h, draws) ==>
        exists r: nat :: r < RingCount(plan.geometry) && Seated(plan, r, p)
  {
    LayoutFromSeated(PlanOf(cfg, w, h), 0, draws);
  }

  /**
   * A missing (undefined) `minParticles` or `maxParticles` makes every clamp
   * NaN, and `i < NaN` is false, so no ring creates any particle.
   */
  lemma {:induction false} MissingLimitEmptiesRings(plan: Plan, i: nat, draws: DrawSource)
    requires plan.policy.minParticles.NaN? || plan.policy.maxParticles.NaN?
    ensures LayoutFrom(plan, i, draws) == []
    decreases |plan.geometry.gaps| - i
  {
    if i < RingCount(plan.geometry) {
      assert RingQuota(plan, i).NaN?;
      assert RingParticles(plan, i, draws) == [];
      MissingLimitEmptiesRings(plan, i + 1, draws);
    }
  }

  lemma MissingLimitEmptiesLayout(cfg: Config, w: real, h: real, draws: DrawSource)
    requires cfg.particleCount.minParticles.NaN? || cfg.particleCount.maxParticles.NaN?
    ensures BuildLayout(cfg, w, h, draws) == []
  {
    MissingLimitEmptiesRings(PlanOf(cfg, w, h), 0, draws);
  }

  /**
   * The layout reads neither `ringWidth`, `particleDensity`, `scaling.baseSize`
   * nor `scaling.ringWidthRatio` (the scale factor `init()` computes from the
   * base size is never used), nor any animation, connection, text or canvas
   * setting.
   */
  lemma LayoutIgnoresUnusedSettings(cfg: Config, other: Config, w: real, h: real, draws: DrawSource)
    requires other.ringGaps == cfg.ringGaps && other.innerRadius == cfg.innerRadius
    requires other.particleCount == cfg.particleCount && other.particleSize == cfg.particleSize
    requires other.colors == cfg.colors
    requires other.scaling.enabled == cfg.scaling.enabled
    requires other.scaling.innerRadiusRatio == cfg.scaling.innerRadiusRatio
    requires other.scaling.ringGapRatios == cfg.scaling.ringGapRatios
    ensures BuildLayout(other, w, h, draws) == BuildLayout(cfg, w, h, draws)
  {
    assert PlanOf(other, w, h) == PlanOf(cfg, w, h);
  }

  /** With scaling on, the configured absolute `innerRadius` and `ringGaps` play no part. */
  lemma ScaledLayoutIgnoresAbsoluteGeometry(cfg: Config, inner: real, gaps: seq<real>, w: real, h: real,
                                            draws: DrawSource)
    requires cfg.scaling.enabled
    ensures BuildLayout(cfg.(innerRadius := inner, ringGaps := gaps), w, h, draws) == BuildLayout(cfg, w, h, draws)
  {
    assert PlanOf(cfg.(innerRadius := inner, ringGaps := gaps), w, h) == PlanOf(cfg, w, h);
  }

  /**
   * With scaling on, the geometry is proportional to the smaller canvas side:
   * the inner radius is `min(w, h) · innerRadiusRatio`, there is one ring per
   * consecutive pair of gap ratios, ring i spans
   * `min(w, h) · (innerRadiusRatio + ratio[i])` to
   * `min(w, h) · (innerRadiusRatio + ratio[i + 1])`, so enlarging both sides
   * by k enlarges every ring bound by k.
   */
  lemma ScaledRingBounds(cfg: Config, w: real, h: real, i: nat)
    requires cfg.scaling.enabled && i + 1 < |cfg.scaling.ringGapRatios|
    ensures var g := EffectiveGeometry(cfg, w, h);
      var size := CanvasSize(w, h);
      var ratios := cfg.scaling.ringGapRatios;
      && RingCount(g) == |ratios| - 1
      && g.innerRadius == size * cfg.scaling.innerRadiusRatio
      && RingAt(g, i).start == size * (cfg.scaling.innerRadiusRatio + ratios[i])
      && RingAt(g, i).end == size * (cfg.scaling.innerRadiusRatio + ratios[i + 1])
  {}

  lemma ScaledRingsAreProportional(cfg: Config, w: real, h: real, k: real, i: nat)
    requires cfg.scaling.enabled && i + 1 < |cfg.scaling.ringGapRatios| && k > 0.0
    ensures var small := RingAt(EffectiveGeometry(cfg, w, h), i);
      var large := RingAt(EffectiveGeometry(cfg, k * w, k * h), i);
      large.start == k * small.start && large.end == k * small.end
  {}

  /** The configured gap list, unscaled, when scaling is off. */
  lemma UnscaledRingBounds(cfg: Config, w: real, h: real, i: nat)
    requires !cfg.scaling.enabled && i + 1 < |cfg.ringGaps|
    ensures var g := EffectiveGeometry(cfg, w, h);
      && RingCount(g) == |cfg.ringGaps| - 1
      && RingAt(g, i).start == cfg.innerRadius + cfg.ringGaps[i]
      && RingAt(g, i).end == cfg.innerRadius + cfg.ringGaps[i + 1]
  {}

  /** A mode string other than `absolute` and `perRing` counts like `density`. */
  lemma UnrecognisedModeCountsAsDensity(pol: CountPolicy, i: nat)
    ensures RequestedCount(pol.(mode := ModeOf("")), i) == RequestedCount(pol.(mode := Density), i)
    ensures RequestedCount(pol.(mode := Other), i) == RequestedCount(pol.(mode := Density), i)
  {}

  /**
   * `density` floors the `absolute` request after applying the multiplier:
   * `floor(floor(base + i · increment) · multiplier)`.
   */
  lemma DensityScalesAbsolute(pol: CountPolicy, i: nat)
    requires pol.mode == Density
    ensures RequestedCount(pol, i) == Floor(Mul(RequestedCount(pol.(mode := Absolute), i), pol.multiplier))
  {}

  /**
   * `perRing` takes entry i only when it is truthy: a 0 (or NaN, null,
   * undefined) entry, a missing array, or an index past its end all fall back
   * to the `absolute` formula.
   */
  lemma PerRingFallsBack(pol: CountPolicy, i: nat)
    requires pol.mode == PerRing
    ensures HasPerRingEntry(pol, i) ==> RequestedCount(pol, i) == pol.perRingCounts.value[i]
    ensures !HasPerRingEntry(pol, i) ==> RequestedCount(pol, i) == RequestedCount(pol.(mode := Absolute), i)
    ensures pol.perRingCounts.Some? && i < |pol.perRingCounts.value| && pol.perRingCounts.value[i] == Finite(0.0)
      ==> RequestedCount(pol, i) == RequestedCount(pol.(mode := Absolute), i)
  {}

}

=== FILE: options.dfy ===
/** Values that may be absent: a JavaScript `null` or `undefined` record entry or argument. */
module Options {

  datatype Option<+T> = None | Some(value: T)

}

=== FILE: particle.dfy ===
/**
 * A particle of the ring as the `Particle` constructor creates it. Every
 * `Math.random()` call of the constructor is an explicit draw, and π is the
 * value of `Math.PI`.
 */
module Particles {
  import opened Options

  const Pi: real := 3.141592653589793

  datatype Particle = Particle(
    baseX: real,
    baseY: real,
    x: real,
    y: real,
    baseRadius: real,
    radius: real,
    color: Option<string>,
    angle: real,
    distance: real,
    opacity: real,
    pulseSpeed: real,
    sizeVariation: real,
    shape: int,
    rotation: real,
    rotationSpeed: real,
    randomOffsetX: real,
    randomOffsetY: real,
    randomAngleX: real,
    randomAngleY: real,
    randomSpeedX: real,
    randomSpeedY: real,
    randomAmplitudeX: real,
    randomAmplitudeY: real,
    orbitDistortion: real,
    orbitPhase: real,
    orbitFrequency: real)

  /** The fifteen `Math.random()` results the constructor consumes, in call order. */
  datatype ConstructorDraws = ConstructorDraws(
    opacity: real,
    pulseSpeed: real,
    sizeVariation: real,
    shape: real,
    rotation: real,
    rotationSpeed: real,
    angleX: real,
    angleY: real,
    speedX: real,
    speedY: real,
    amplitudeX: real,
    amplitudeY: real,
    distortion: real,
    phase: real,
    frequency: real)

  /** A possible result of `Math.random()`. */
  predicate IsDraw(r: real) {
    0.0 <= r < 1.0
  }

  predicate ValidConstructorDraws(d: ConstructorDraws) {
    && IsDraw(d.opacity) && IsDraw(d.pulseSpeed) && IsDraw(d.sizeVariation)
    && IsDraw(d.shape) && IsDraw(d.rotation) && IsDraw(d.rotationSpeed)
    && IsDraw(d.angleX) && IsDraw(d.angleY) && IsDraw(d.speedX) && IsDraw(d.speedY)
    && IsDraw(d.amplitudeX) && IsDraw(d.amplitudeY)
    && IsDraw(d.distortion) && IsDraw(d.phase) && IsDraw(d.frequency)
  }

  /** The ranges the constructor's comments give its randomised fields. */
  predicate RandomFieldsInRange(p: Particle) {
    && 0.7 <= p.opacity < 1.0
    && 0.01 <= p.pulseSpeed < 0.03
    && 0.5 <= p.sizeVariation < 1.0
    && p.shape in {0, 1, 2}
    && 0.0 <= p.rotation < 2.0 * Pi
    && -0.1 <= p.rotationSpeed < 0.1
    && 0.0 <= p.randomAngleX < 2.0 * Pi
    && 0.0 <= p.randomAngleY < 2.0 * Pi
    && 0.005 <= p.randomSpeedX < 0.025
    && 0.005 <= p.randomSpeedY < 0.025
    && 2.0 <= p.randomAmplitudeX < 10.0
    && 2.0 <= p.randomAmplitudeY < 10.0
    && 0.3 <= p.orbitDistortion < 0.7
    && 0.0 <= p.orbitPhase < 2.0 * Pi
    && 1.0 <= p.orbitFrequency < 4.0
  }

  /**
   * `new Particle(x, y, radius, color, angle, distance)`: the anchor and the
   * current position both start at (x, y), the pulsing radius starts at the
   * base radius, the wander offsets start at zero, and each random field lies
   * in its stated range whenever the draws are results of `Math.random()`.
   */
  function NewParticle(x: real, y: real, radius: real, color: Option<string>, angle: real, distance: real,
                       d: ConstructorDraws): (p: Particle)
    ensures p.baseX == p.x == x && p.baseY == p.y == y
    ensures p.baseRadius == p.radius == radius
    ensures p.color == color && p.angle == angle && p.distance == distance
    ensures p.randomOffsetX == 0.0 && p.randomOffsetY == 0.0
    ensures ValidConstructorDraws(d) ==> RandomFieldsInRange(p)
  {
    Particle(
      baseX := x,
      baseY := y,
      x := x,
      y := y,
      baseRadius := radius,
      radius := radius,
      color := color,
      angle := angle,
      distance := distance,
      opacity := d.opacity * 0.3 + 0.7,
      pulseSpeed := d.pulseSpeed * 0.02 + 0.01,
      sizeVariation := d.sizeVariation * 0.5 + 0.5,
      shape := (d.shape * 3.0).Floor,
      rotation := d.rotation * Pi * 2.0,
      rotationSpeed := (d.rotationSpeed - 0.5) * 0.2,
      randomOffsetX := 0.0,
      randomOffsetY := 0.0,
      randomAngleX := d.angleX * Pi * 2.0,
      randomAngleY := d.angleY * Pi * 2.0,
      randomSpeedX := d.speedX * 0.02 + 0.005,
      randomSpeedY := d.speedY * 0.02 + 0.005,
      randomAmplitudeX := d.amplitudeX * 8.0 + 2.0,
      randomAmplitudeY := d.amplitudeY * 8.0 + 2.0,
      orbitDistortion := d.distortion * 0.4 + 0.3,
      orbitPhase := d.phase * Pi * 2.0,
      orbitFrequency := d.frequency * 3.0 + 1.0)
  }

}

=== FILE: presets.dfy ===
/**
 * The preset builders of the control object. Each returns an argument for
 * `updateConfig`; the `particleCount` fragment it carries lists only some of
 * the policy's keys, so the others read as undefined after the shallow merge.
 */
module Presets {
  import opened Options
  import opened JsNumber
  import opened RingConfig
  import opened Layout
  import opened Engine
  import opened Controls

  /** A `particleCount` fragment that names mode, base, increment and multiplier and nothing else. */
  function Fragment(mode: CountMode, base: real, increment: real, multiplier: real): CountPolicy {
    CountPolicy(mode, Finite(base), Finite(increment), Finite(multiplier), None, NaN, NaN)
  }

  /** A `particleCount` fragment without `minParticles` and `maxParticles`: both read as undefined. */
  predicate DropsLimits(p: Patch) {
    p.particleCount.Some? && p.particleCount.value.minParticles.NaN? && p.particleCount.value.maxParticles.NaN?
  }

  /**
   * The keys no preset carries: the merge keeps the gap list, scaling,
   * particle sizes, connections, text, canvas, pattern and pause flag.
   */
  predicate KeepsFrame(cfg: Config, p: Patch) {
    var c := Merge(cfg, p);
    && c.ringGaps == cfg.ringGaps && c.scaling == cfg.scaling && c.particleSize == cfg.particleSize
    && c.connections == cfg.connections && c.text == cfg.text && c.canvas == cfg.canvas
    && c.currentPattern == cfg.currentPattern && c.paused == cfg.paused
  }

  /**
   * `saturn()`: the default look. Merged into the default configuration it
   * gives the defaults back, except that the count limits are gone.
   */
  function Saturn(): (p: Patch)
    ensures DropsLimits(p) && forall cfg :: KeepsFrame(cfg, p)
    ensures Merge(DefaultConfig, p)
         == DefaultConfig.(particleCount := DefaultConfig.particleCount.(minParticles := NaN, maxParticles := NaN))
  {
    NoChange.(
      rotationSpeed := Some(0.002), ringWidth := Some(15.0), innerRadius := Some(180.0),
      particleDensity := Some(2.0),
      particleCount := Some(Fragment(Density, 30.0, 7.0, 2.0)),
      colors := Some(DefaultColors))
  }

  /** `galaxy()`: speed, ring settings, a `density` fragment and a palette. */
  function Galaxy(): (p: Patch)
    ensures DropsLimits(p) && forall cfg :: KeepsFrame(cfg, p)
    ensures p.particleCount.value.mode == Density
  {
    NoChange.(
      rotationSpeed := Some(0.001), ringWidth := Some(25.0), innerRadius := Some(100.0),
      particleDensity := Some(3.0),
      particleCount := Some(Fragment(Density, 40.0, 10.0, 3.0)),
      colors := Some(["#ffffff", "#ffddaa", "#ffccdd", "#ddccff", "#ccffcc", "#ffffcc"]))
  }

  /** `nebula()`: speed, ring settings, a `density` fragment and a palette. */
  function Nebula(): (p: Patch)
    ensures DropsLimits(p) && forall cfg :: KeepsFrame(cfg, p)
    ensures p.particleCount.value.mode == Density
  {
    NoChange.(
      rotationSpeed := Some(0.003), ringWidth := Some(20.0), innerRadius := Some(150.0),
      particleDensity := Some(1.5),
      particleCount := Some(Fragment(Density, 20.0, 5.0, 1.5)),
      colors := Some(["#ff6b9d", "#c44569", "#f8b500", "#feca57", "#ff9ff3", "#54a0ff"]))
  }

  /** `minimal()`: only an `absolute` count fragment; every other key is kept. */
  function Minimal(): (p: Patch)
    ensures DropsLimits(p) && p.particleCount.value.mode == Absolute
    ensures forall cfg :: Merge(cfg, p) == cfg.(particleCount := p.particleCount.value)
  {
    NoChange.(particleCount := Some(Fragment(Absolute, 15.0, 3.0, 1.0)))
  }

  /** The `minimal()` fragment asks ring i for 15 + 3i particles. */
  lemma MinimalRequests(i: nat)
    ensures RequestedCount(Minimal().particleCount.value, i) == Finite(15.0 + 3.0 * i as real)
  {
    var n: int := 15 + 3 * i;
    assert 15.0 + (i as real) * 3.0 == n as real;
    assert (n as real).Floor == n;
  }

  /** `dense()`: only a `density` count fragment; every other key is kept. */
  function Dense(): (p: Patch)
    ensures DropsLimits(p) && p.particleCount.value.mode == Density
    ensures forall cfg :: Merge(cfg, p) == cfg.(particleCount := p.particleCount.value)
  {
    NoChange.(particleCount := Some(Fragment(Density, 50.0, 15.0, 4.0)))
  }

  /** `custom(ringCounts)`: only mode and per-ring counts; base, increment and multiplier are undefined too. */
  function Custom(counts: Option<seq<Num>>): (p: Patch)
    ensures DropsLimits(p) && p.particleCount.value.mode == PerRing && p.particleCount.value.perRingCounts == counts
    ensures p.particleCount.value.baseCount.NaN?
    ensures forall cfg :: Merge(cfg, p) == cfg.(particleCount := p.particleCount.value)
  {
    NoChange.(particleCount := Some(CountPolicy(PerRing, NaN, NaN, NaN, counts, NaN, NaN)))
  }

  predicate IsPreset(p: Patch) {
    p == Saturn() || p == Galaxy() || p == Nebula() || p == Minimal() || p == Dense()
    || (p.particleCount.Some? && p == Custom(p.particleCount.value.perRingCounts))
  }

  /**
   * Applying any preset through `updateConfig` drops `minParticles` and
   * `maxParticles`, whatever they were, and the rebuilt ring is empty.
   */
  lemma PresetEmptiesLayout(s: Animation, p: Patch, env: Env)
    requires IsPreset(p)
    ensures UpdateConfig(s, p, env).config.particleCount.minParticles.NaN?
    ensures UpdateConfig(s, p, env).particles == []
  {
    FragmentWithoutLimitsEmptiesLayout(s, p, env);
  }
}

=== FILE: scenarios.dfy ===
/** Concrete consequences of the default configuration and of a few calls. */
module Scenarios {
  import opened Options
  import opened JsNumber
  import opened RingConfig
  import opened Layout
  import opened Engine
  import opened Controls

  /** The default policy asks ring i for `floor(floor(30 + 7i) · 2) = 60 + 14i` particles. */
  lemma DefaultRequests(i: nat)
    ensures RequestedCount(DefaultConfig.particleCount, i) == Finite(60.0 + 14.0 * i as real)
  {
    var n: int := 30 + 7 * i;
    assert 30.0 + (i as real) * 7.0 == n as real;
    assert (n as real).Floor == n;
    assert (n as real) * 2.0 == (2 * n) as real;
    assert ((2 * n) as real).Floor == 2 * n;
  }

  lemma DefaultRingTwoRequests88()
    ensures RequestedCount(DefaultConfig.particleCount, 2) == Finite(88.0)
  {
    DefaultRequests(2);
  }

  /** On any canvas, the default configuration has eight rings whose requests all lie inside the clamp. */
  lemma DefaultQuota(w: real, h: real, i: nat)
    requires i < 8
    ensures RingCount(PlanOf(DefaultConfig, w, h).geometry) == 8
    ensures LoopCount(RingQuota(PlanOf(DefaultConfig, w, h), i)) == 60 + 14 * i
  {}

  /** So `init()` with the default configuration creates 872 particles, whatever the canvas size. */
  lemma DefaultLayoutHolds872(w: real, h: real, draws: DrawSource)
    ensures |BuildLayout(DefaultConfig, w, h, draws)| == 872
  {
    var plan := PlanOf(DefaultConfig, w, h);
    DefaultQuota(w, h, 0);
    DefaultQuota(w, h, 1);
    DefaultQuota(w, h, 2);
    DefaultQuota(w, h, 3);
    DefaultQuota(w, h, 4);
    DefaultQuota(w, h, 5);
    DefaultQuota(w, h, 6);
    DefaultQuota(w, h, 7);
    assert CreatedFrom(plan, 8) == 0;
    assert CreatedFrom(plan, 7) == 158;
    assert CreatedFrom(plan, 6) == 302;
    assert CreatedFrom(plan, 5) == 432;
    assert CreatedFrom(plan, 4) == 548;
    assert CreatedFrom(plan, 3) == 650;
    assert CreatedFrom(plan, 2) == 738;
    assert CreatedFrom(plan, 1) == 812;
  }

  /** `setAbsoluteParticleCount(800)` with the default nine gaps asks every ring for 100. */
  lemma AbsoluteEightHundred(s: Animation, env: Env, i: nat)
    requires |s.config.ringGaps| == 9
    ensures RequestedCount(SetAbsoluteParticleCount(s, 800.0, env).config.particleCount, i) == Finite(100.0)
  {}

  /**
   * The clamp divides `minParticles` by the gap count, not the ring count:
   * with nine gaps and requests of 0, each of the eight rings gets
   * `ceil(50 / 9) = 6` particles, 48 in all, below `minParticles = 50`.
   */
  lemma MinimumNotReached(w: real, h: real, draws: DrawSource)
    ensures var cfg := DefaultConfig.(particleCount :=
        DefaultConfig.particleCount.(mode := Absolute, baseCount := Finite(0.0), increment := Finite(0.0)));
      |BuildLayout(cfg, w, h, draws)| == 48 && 48 < 50
  {
    var cfg := DefaultConfig.(particleCount :=
        DefaultConfig.particleCount.(mode := Absolute, baseCount := Finite(0.0), increment := Finite(0.0)));
    var plan := PlanOf(cfg, w, h);
    assert |plan.geometry.gaps| == 9;
    forall i: nat | i < 8
      ensures LoopCount(RingQuota(plan, i)) == 6
    {
      var m := (i as real) * 0.0;
      assert m == 0.0;
      assert RequestedCount(plan.policy, i) == Finite(0.0);
      assert RingQuota(plan, i) == Finite(50.0 / 9.0);
      assert Ceil(50.0 / 9.0) == 6;
    }
    assert CreatedFrom(plan, 8) == 0;
    assert CreatedFrom(plan, 7) == 6;
    assert CreatedFrom(plan, 6) == 12;
    assert CreatedFrom(plan, 5) == 18;
    assert CreatedFrom(plan, 4) == 24;
    assert CreatedFrom(plan, 3) == 30;
    assert CreatedFrom(plan, 2) == 36;
    assert CreatedFrom(plan, 1) == 42;
  }

  /**
   * On a canvas whose smaller side is the base size, the default scaled
   * geometry is exactly the default absolute one, so turning scaling off
   * there leaves every ring where it was.
   */
  lemma ScaledDefaultsAtBaseSize(w: real, h: real)
    requires CanvasSize(w, h) == DefaultConfig.scaling.baseSize
    ensures EffectiveGeometry(DefaultConfig, w, h)
         == EffectiveGeometry(DefaultConfig.(scaling := DefaultConfig.scaling.(enabled := false)), w, h)
  {
    DefaultsAgreeAtBaseSize();
    var g := EffectiveGeometry(DefaultConfig, w, h);
    assert g.gaps == DefaultConfig.ringGaps;
  }
}
